=== FILE: README.md ===
# Derived-field engine of the financial statement models

This project models, in Dafny, the part of the finstatement-parser repository that turns extracted line items into financial-statement records. It covers three things:

- **Income side** (`income_rep_model.py`):
  - `COGS` has five leaves and `total_cogs`.
  - `OperatingExpenses` has 26 leaves, three subtotals and `total_operating_expenses`.
  - `IncomeStatement` derives its fields in a chain: gross profit → EBIT → EBITDA and EBT → net income → total expenses → operating and net margin.
- **Balance side** (`balance_rep_model.py`):
  - Five sub-statements: current assets, long-term assets, current liabilities, long-term liabilities and equity.
  - `BalanceStatement` aggregates them into total assets, total liabilities and total equity.
- **Two JSON helpers** (`misc.py`):
  - `downcase_keys` lower-cases object keys recursively.
  - `filter_keys_by_category` selects keys by their value.

Every derived field follows one rule: **a supplied value wins; only an unset field is computed**, from fields that are already resolved. The rule applies to each field separately, not to the entity as a whole.

## How the model is organised

| file | module | what it holds |
|---|---|---|
| `wrappers.dfy` | `Wrappers` | `Option` and `Result` |
| `derivation.dfy` | `Derivation` | The engine: `Kwargs` and the rest (see below) |
| `income_model.dfy` | `IncomeModel` | COGS, operating expenses, the income statement |
| `balance_model.dfy` | `BalanceModel` | The five sub-statements and the balance statement |
| `dicts.dfy` | `Dicts` | Insertion-ordered dicts with Python `dict` semantics |
| `misc.dfy` | `Misc` | The `Json` datatype, `Downcase`, `FilterKeysByCategory` |

The engine in `Derivation` consists of:

- `Kwargs`: the keyword arguments a constructor receives. A key that is present counts as supplied and non-null.
- `Get`: the source's `values.get(name, 0)`.
- `SignedSum`: the signed sum of named leaves.
- `Resolve` and `Derived`: the "supplied wins" rule and its contract.

Modelling decisions:

- **Raw inputs are maps.** Each constructor takes a `map<string, real>`, which is what pydantic sees in `values`. Keys that are not fields of the entity are ignored. A total that a `pre=True` validator resolves behaves like an absent total when supplied as `None`. These are the sub-statement totals, the operating-expense subtotals and total, `gross_profit`, and the balance statement's `total_assets`, `total_liabilities` and `total_equity`.
- **Composite constructors take resolved records.** `MakeIncomeStatement` and `MakeBalanceStatement` take the sub-statements as already-resolved records, never as raw maps.
- **Construction returns a `Result`.** A missing `revenue` or `tax_expenses` yields `MissingRequiredFields`. The list holds every missing name, in declaration order, as pydantic reports them all. A failed balance check yields `InvariantViolation` with both values. No partial record is ever returned.
- **Two balance-statement variants.** `balance_rep_model.py` defines `BalanceStatement` twice. The strict definition (line 223) resolves `total_liabilities_and_equity` and asserts that it equals `total_assets`. The later definition (line 308) is the one the module actually binds: it has neither that field nor the check. Both are modelled by `MakeBalanceStatement` with a `BalancePolicy` of `Strict` or `Lenient`.
  - Under `Strict`, a supplied `total_liabilities_and_equity` is compared with `total_assets` as it is. It is not recomputed from liabilities and equity.
- **Amounts are `real`.** The source only adds, subtracts and performs two divisions by revenue, both guarded. A ratio to a zero revenue is 0, as in the source.

Behaviour of the source that the model keeps as written:

- **`hiring_fees` is not summed.** It is a field of `OperatingExpenses`, but it is not one of the sixteen leaves that `total_sg_and_a` adds up (income_rep_model.py:217-233). `HiringFeesInNoTotal` proves that it changes no total.
- **`net_income` adds `extraordinary_expenses`.** It is computed as `ebt - tax_expenses + extraordinary_expenses`, while `total_expenses` counts the same amount as an expense. `NetIncomeAgainstTotalExpenses` proves the consequence: when nothing derived is supplied, net income exceeds revenue + other revenue − total expenses by twice the extraordinary expenses.
- **The income test's figures.** The source's own test builds a COGS of 46000 from five leaves, so its income statement has a gross profit of 102300 (income_rep_model.py:445-451, 512-520). `IncomeChainExample` reproduces the whole chain, margins included, from the test's keyword arguments.

## Model

| member | source | states |
|---|---|---|
| Derivation.ResolveReadsOnlyItsName | income_rep_model.py:39 | A resolved field is unaffected by any other keyword argument. Supplying its resolved value back gives the same value, whatever the formula |
| Derivation.SignedSumIgnoresOtherKeys | balance_rep_model.py:39-46 | A computed total reads only its own named leaves: changing any other key leaves the sum unchanged |
| Derivation.SignedSumAppend | income_rep_model.py:217-233 | The sum over two groups of leaves is the sum of the two groups' sums |
| Derivation.SignedSumOfUnsetLeaves | income_rep_model.py:41-47 | With no leaf supplied, the computed total is 0, because each absent leaf counts 0 |
| IncomeModel.MakeCogs | income_rep_model.py:36-49 | Each leaf is its supplied value, or 0 when absent. A supplied `total_cogs` is kept. An unset one equals raw materials + labor + overhead + freight + inventory changes of the record |
| IncomeModel.CogsRoundTrip | income_rep_model.py:39-47 | Rebuilding a COGS record from its own fields, total included, gives the same record |
| IncomeModel.CogsIgnoresOtherKeys | income_rep_model.py:41-46 | A keyword argument that is not a COGS field has no effect on the record |
| IncomeModel.MakeOperatingExpenses | income_rep_model.py:212-275 | Each leaf is its supplied value, or 0 when absent. Each unset subtotal sums its own group: sixteen leaves for SG&A, three for R&D, six for other operating. An unset overall total adds the three resolved subtotals, whether supplied or computed |
| IncomeModel.SubtotalsReadOnlyTheirGroup | income_rep_model.py:215-261 | Each subtotal is unaffected by any key outside its own leaf group and its own name, including the other groups' leaves |
| IncomeModel.HiringFeesInNoTotal | income_rep_model.py:135-233 | `hiring_fees` is kept as a leaf but changes none of the four totals |
| IncomeModel.MissingRequired | income_rep_model.py:279-299 | The names reported missing are the required fields (`revenue`, `tax_expenses`) absent from the input, listed in declaration order |
| IncomeModel.RatioToRevenue | income_rep_model.py:424-428 | The ratio is 0 when revenue is 0. Otherwise, multiplied by revenue, it gives back the amount |
| IncomeModel.MakeIncomeStatement | income_rep_model.py:338-441 | Construction fails exactly when `revenue` or `tax_expenses` is missing, and the error names the missing ones in declaration order. Otherwise each derived field is its supplied value or its formula over already-resolved fields, so a supplied gross profit is what EBIT reads |
| IncomeModel.IncomeRoundTrip | income_rep_model.py:338-441 | Rebuilding a statement from its own resolved fields and sub-statements gives the same statement |
| IncomeModel.IncomeClosedForm | income_rep_model.py:342-416 | With no derived field supplied, EBIT, EBITDA, net income and total expenses equal closed forms over the raw inputs and the two sub-statement totals |
| IncomeModel.NetIncomeAgainstTotalExpenses | income_rep_model.py:395-416 | With nothing derived supplied, net income = revenue + other revenue − total expenses + 2 × extraordinary expenses |
| IncomeModel.MarginsAgainstRevenue | income_rep_model.py:419-441 | Unless supplied, and with revenue non-zero, operating margin times revenue is EBIT and net margin times revenue is net income |
| IncomeModel.ZeroRevenueMargins | income_rep_model.py:419-441 | A zero revenue does not fail construction. Both margins are then 0 unless supplied |
| IncomeModel.CogsExamples | income_rep_model.py:444-457 | Leaves 20000/15000/8000/2000/1000 give 46000. `raw_materials_cost` 800 with `total_cogs` 34000 gives 34000 |
| IncomeModel.OpexSuppliedSubtotals | income_rep_model.py:486-510 | Supplied SG&A 23000 and other 2600 are kept. R&D is 22 + 32, with the non-field `research_and_development` ignored. The total is 25654 |
| IncomeModel.OpexOfTestLeaves | income_rep_model.py:463-484 | With the income test's leaves and no total supplied, SG&A is 19458.42, R&D 277, other operating 693.3 and the total 20428.72 |
| IncomeModel.ExampleOpexTotals | income_rep_model.py:463-484 | The income test's own operating-expense arguments resolve to a total of 20428.72, with depreciation 9.22 and amortization 17900 |
| IncomeModel.IncomeChainExample | income_rep_model.py:445-521 | COGS and operating expenses are built from the test's own keyword arguments (46000 and 20428.72). The statement then has gross profit 102300, EBIT 81871.28, EBITDA 99780.5, EBT 79571.28, net income 1801.28, total expenses 146958.72, operating margin 81871.28 / 148300 and net margin 1801.28 / 148300 |
| IncomeModel.IncomeMissingRequired | income_rep_model.py:279-299 | Without `revenue` and `tax_expenses` there is no statement, and both names are reported in declaration order |
| BalanceModel.MakeCurrentAssets | balance_rep_model.py:37-47 | Leaves default to 0. A supplied total is kept. An unset total is the sum of the five leaves of the record |
| BalanceModel.MakeLongTermAssets | balance_rep_model.py:82-92 | Leaves default to 0. A supplied total is kept. An unset total is the sum of the five leaves of the record |
| BalanceModel.MakeCurrentLiabilities | balance_rep_model.py:127-137 | Leaves default to 0. A supplied total is kept. An unset total is the sum of the five leaves of the record |
| BalanceModel.MakeLongTermLiabilities | balance_rep_model.py:172-182 | Leaves default to 0. A supplied total is kept. An unset total is the sum of the five leaves of the record |
| BalanceModel.MakeEquity | balance_rep_model.py:212-221 | Leaves default to 0. A supplied total is kept. An unset total is common stock + retained earnings + additional paid-in capital − treasury stock |
| BalanceModel.CurrentAssetsRoundTrip | balance_rep_model.py:5-47 | Rebuilding current assets from its own fields, total included, gives the same record |
| BalanceModel.CurrentAssetsIgnoresOtherKeys | balance_rep_model.py:5-47 | A key that is none of the current assets fields has no effect on the record |
| BalanceModel.LongTermAssetsRoundTrip | balance_rep_model.py:50-92 | Rebuilding long-term assets from its own fields, total included, gives the same record |
| BalanceModel.LongTermAssetsIgnoresOtherKeys | balance_rep_model.py:50-92 | A key that is none of the long-term assets fields has no effect on the record |
| BalanceModel.CurrentLiabilitiesRoundTrip | balance_rep_model.py:95-137 | Rebuilding current liabilities from its own fields, total included, gives the same record |
| BalanceModel.CurrentLiabilitiesIgnoresOtherKeys | balance_rep_model.py:95-137 | A key that is none of the current liabilities fields has no effect on the record |
| BalanceModel.LongTermLiabilitiesRoundTrip | balance_rep_model.py:140-182 | Rebuilding long-term liabilities from its own fields, total included, gives the same record |
| BalanceModel.LongTermLiabilitiesIgnoresOtherKeys | balance_rep_model.py:140-182 | A key that is none of the long-term liabilities fields has no effect on the record |
| BalanceModel.EquityRoundTrip | balance_rep_model.py:185-221 | Rebuilding equity from its own fields, total included, gives the same record |
| BalanceModel.EquityIgnoresOtherKeys | balance_rep_model.py:214-220 | A key that is no equity field has no effect on the resolved equity |
| BalanceModel.MakeBalanceStatement | balance_rep_model.py:223-377 | Each total is supplied or the sum of the sub-statement totals it aggregates. Lenient always succeeds and has no liabilities-and-equity total. Strict succeeds only with total assets equal to the resolved liabilities-and-equity total. Otherwise it reports both values: total assets and that total, supplied or computed from the resolved liabilities and equity |
| BalanceModel.BalanceRoundTrip | balance_rep_model.py:251-306 | Rebuilding a statement from its own totals and sub-statements, under the same policy, gives the same statement |
| BalanceModel.StrictAgainstLenient | balance_rep_model.py:284-377 | The two variants agree on every total they share. Strict succeeds exactly when the lenient total assets equal the supplied liabilities-and-equity total, or else the lenient liabilities plus equity |
| BalanceModel.StrictBalancesSubStatements | balance_rep_model.py:294-305 | With no statement total supplied, Strict succeeds exactly when the sub-statement totals satisfy assets = liabilities + equity |
| BalanceModel.CurrentAssetsFromLeaves | balance_rep_model.py:380-388 | 10000 + 5000 + 8000 + 2000 + 3000 gives 28000 |
| BalanceModel.CurrentAssetsSuppliedTotal | balance_rep_model.py:390-394 | Cash 1500 with a supplied total of 25000 gives 25000 |
| BalanceModel.EquityFromLeaves | balance_rep_model.py:448-455 | 20000 + 10000 + 5000 − 2000 gives 33000 |
| BalanceModel.MismatchedTotals | balance_rep_model.py:485-506 | Totals 50000/150000/30000/120000/70000: Lenient constructs with assets 200000, liabilities 150000 and equity 70000. Strict fails with 200000 against 220000 |
| BalanceModel.ConsistentTotals | balance_rep_model.py:509-533 | Totals 60000/140000/40000/80000/80000 construct under both policies, with total assets = total liabilities + total equity |
| Dicts.CollectIsDict | misc.py:63 | A dict built from pairs has distinct keys, in first-occurrence order, and each key holds the value of its last occurrence |
| Dicts.CollectOfDict | misc.py:63 | A list that already has distinct keys is rebuilt unchanged |
| Misc.Lower | misc.py:63 | Lower-casing keeps the length, maps each ASCII capital to the letter 32 code points above it, and leaves every other character as it is |
| Misc.LowerSameIffEqualIgnoringCase | misc.py:63 | Two keys lower-case to the same key exactly when they agree position by position up to ASCII case |
| Misc.Downcase | misc.py:60-69 | The result is a dict with lower-case keys at every depth. A list maps elementwise, with the same length and order. A scalar is returned unchanged |
| Misc.DowncaseObject | misc.py:63 | Keys differing only in case collapse to one entry, placed at the key's first occurrence and holding the downcased value of its last occurrence |
| Misc.DowncaseNormalized | misc.py:60-69 | A document whose keys are already lower-case and distinct at every depth is left unchanged |
| Misc.DowncaseIdempotent | misc.py:60-69 | Applying the helper twice equals applying it once |
| Misc.DowncaseCollapseExample | misc.py:63 | `{"Cash": 1, "debt": null, "CASH": 2}` becomes `{"cash": 2, "debt": null}` |
| Misc.FilterKeysByCategory | misc.py:71-85 | For items that are dicts (no repeated key), the result is the selected keys in item-then-key order. A key is in it exactly when some pair has that key and a value equal to the category, or a null value when no category is given. It is never longer than the number of pairs |
| Misc.KeysInCategoryMembers | misc.py:83-85 | The selected keys are exactly the keys of the pairs whose value is in the category |
| Misc.KeysInCategoryCount | misc.py:83-85 | There are never more selected keys than pairs |
| Misc.FilterExample | misc.py:82-85 | Selecting `expense` yields `rent`, `wages`. Selecting null yields `misc` |

## Left out

- **FastAPI routing, document extraction and model-service calls** (`app.py`): these are I/O and calls into external services.
- **The grouping of known fields by `fin_type`** (app.py:124-130): it is a pure loop, but it reads the field registry returned by `retrieve_*_fields`, which is left out (below).
- **Prompt strings** (`prompts.py`): they hold no logic.
- **The notebook** (`jupytext/statement_reasoning.py`): it performs service calls and file I/O. Its copies of the two JSON helpers duplicate `misc.py`.
- **`get_apikey`**: it reads credentials from a netrc file, which is I/O.
- **`retrieve_income_rep_fields` / `retrieve_balance_rep_fields`**: these introspect pydantic field metadata (descriptions and `fin_type`). The derivation does not depend on them.
- **Floating-point rounding**: amounts are exact `real` values. The source adds, subtracts and performs two guarded divisions by revenue, all on floats. Rounding can change more than precision: the strict balance check compares float sums with `==` (balance_rep_model.py:303). For example, 0.1 + 0.2 against 0.3 fails in Python but succeeds in the model.
- **An explicit null for an after-validated field**: `ebit`, `ebitda`, `ebt`, `net_income`, `total_expenses`, the two margins and the strict `total_liabilities_and_equity` are declared as plain `float` and resolved in `pre=False` validators (income_rep_model.py:350-441, balance_rep_model.py:284-299). Under pydantic 2, which `misc.py` relies on (its `json_schema_extra`), an explicit `None` for one of them fails validation before those validators run. The model has no null, so that failure is not modelled: an absent field is computed.
- **pydantic crash paths**:
  - Records holding a null leaf cannot be expressed: the input map holds no nulls. In the source, an explicit `None` leaf raises only when that leaf is summed. With the total supplied (income_rep_model.py:39, balance_rep_model.py:39), the record constructs and keeps the `None`.
  - A raw dict passed where a sub-statement is expected fails on attribute access. Sub-statements are resolved records here.
- **The unqualified `ensure_ebit` call and debug output in `ensure_ebitda`**: the call is never reached, because EBIT is already resolved by the earlier validator. The prints are output only.
- **Key types and Unicode**: `downcase_keys` is modelled on JSON documents whose object keys are strings, with ASCII lower-casing. Python's `str.lower` also folds non-ASCII letters.
- **Non-list input to `filter_keys_by_category`**: the input is typed as a list of objects. Other shapes raise in the source.
- IncomeModel.MakeOperatingExpenses: there is no round-trip or unknown-key lemma for the whole thirty-field record; those are proved for COGS. For operating expenses, unknown keys are covered per subtotal by `SubtotalsReadOnlyTheirGroup`.

=== FILE: balance_model.dfy ===
/**
 * The balance side: five sub-statements with one total each, and the balance
 * statement that aggregates them into assets, liabilities and equity.
 */
module BalanceModel {
  import opened Wrappers
  import opened Derivation

  // ---------------------------------------------------------------------------
  // Sub-statements
  // ---------------------------------------------------------------------------

  /** Resolved current assets. */
  datatype CurrentAssets = CurrentAssets(
    cashAndCashEquivalents: real,
    accountsReceivable: real,
    inventory: real,
    prepaidExpenses: real,
    shortTermInvestments: real,
    totalCurrentAssets: real)

  const CurrentAssetsLeaves: seq<Term> := [
    Plus("cash_and_cash_equivalents"), Plus("accounts_receivable"), Plus("inventory"),
    Plus("prepaid_expenses"), Plus("short_term_investments")]

  /** Constructs current assets; absent leaves default to 0. */
  function MakeCurrentAssets(kw: Kwargs): (ca: CurrentAssets)
    ensures && ca.cashAndCashEquivalents == Get(kw, "cash_and_cash_equivalents")
            && ca.accountsReceivable == Get(kw, "accounts_receivable")
            && ca.inventory == Get(kw, "inventory")
            && ca.prepaidExpenses == Get(kw, "prepaid_expenses")
            && ca.shortTermInvestments == Get(kw, "short_term_investments")
    ensures Derived(kw, "total_current_assets", ca.totalCurrentAssets,
      ca.cashAndCashEquivalents + ca.accountsReceivable + ca.inventory
      + ca.prepaidExpenses + ca.shortTermInvestments)
  {
    CurrentAssets(
      Get(kw, "cash_and_cash_equivalents"),
      Get(kw, "accounts_receivable"),
      Get(kw, "inventory"),
      Get(kw, "prepaid_expenses"),
      Get(kw, "short_term_investments"),
      Resolve(kw, "total_current_assets", SignedSum(kw, CurrentAssetsLeaves)))
  }

  /** The record's fields by name, as the keyword arguments that rebuild it. */
  function CurrentAssetsFields(ca: CurrentAssets): (kw: Kwargs) {
    map[
      "cash_and_cash_equivalents" := ca.cashAndCashEquivalents,
      "accounts_receivable" := ca.accountsReceivable,
      "inventory" := ca.inventory,
      "prepaid_expenses" := ca.prepaidExpenses,
      "short_term_investments" := ca.shortTermInvestments,
      "total_current_assets" := ca.totalCurrentAssets]
  }

  /** Rebuilding current assets from its own fields gives the record back. */
  lemma CurrentAssetsRoundTrip(ca: CurrentAssets)
    ensures MakeCurrentAssets(CurrentAssetsFields(ca)) == ca
  {
  }

  /** A key that is none of the current assets fields has no effect on the record. */
  lemma CurrentAssetsIgnoresOtherKeys(kw: Kwargs, k: string, v: real)
    requires k !in TermNames(CurrentAssetsLeaves) && k != "total_current_assets"
    ensures MakeCurrentAssets(kw[k := v]) == MakeCurrentAssets(kw)
  {
    SignedSumIgnoresOtherKeys(kw, CurrentAssetsLeaves, k, v);
  }

  /** Resolved long-term assets. */
  datatype LongTermAssets = LongTermAssets(
    propertyPlantEquipment: real,
    intangibleAssets: real,
    longTermInvestments: real,
    deferredTaxAssets: real,
    otherNonCurrentAssets: real,
    totalLongTermAssets: real)

  const LongTermAssetsLeaves: seq<Term> := [
    Plus("property_plant_equipment"), Plus("intangible_assets"), Plus("long_term_investments"),
    Plus("deferred_tax_assets"), Plus("other_non_current_assets")]

  /** Constructs long-term assets; absent leaves default to 0. */
  function MakeLongTermAssets(kw: Kwargs): (lta: LongTermAssets)
    ensures && lta.propertyPlantEquipment == Get(kw, "property_plant_equipment")
            && lta.intangibleAssets == Get(kw, "intangible_assets")
            && lta.longTermInvestments == Get(kw, "long_term_investments")
            && lta.deferredTaxAssets == Get(kw, "deferred_tax_assets")
            && lta.otherNonCurrentAssets == Get(kw, "other_non_current_assets")
    ensures Derived(kw, "total_long_term_assets", lta.totalLongTermAssets,
      lta.propertyPlantEquipment + lta.intangibleAssets + lta.longTermInvestments
      + lta.deferredTaxAssets + lta.otherNonCurrentAssets)
  {
    LongTermAssets(
      Get(kw, "property_plant_equipment"),
      Get(kw, "intangible_assets"),
      Get(kw, "long_term_investments"),
      Get(kw, "deferred_tax_assets"),
      Get(kw, "other_non_current_assets"),
      Resolve(kw, "total_long_term_assets", SignedSum(kw, LongTermAssetsLeaves)))
  }

  /** The record's fields by name, as the keyword arguments that rebuild it. */
  function LongTermAssetsFields(lta: LongTermAssets): (kw: Kwargs) {
    map[
      "property_plant_equipment" := lta.propertyPlantEquipment,
      "intangible_assets" := lta.intangibleAssets,
      "long_term_investments" := lta.longTermInvestments,
      "deferred_tax_assets" := lta.deferredTaxAssets,
      "other_non_current_assets" := lta.otherNonCurrentAssets,
      "total_long_term_assets" := lta.totalLongTermAssets]
  }

  /** Rebuilding long-term assets from its own fields gives the record back. */
  lemma LongTermAssetsRoundTrip(lta: LongTermAssets)
    ensures MakeLongTermAssets(LongTermAssetsFields(lta)) == lta
  {
  }

  /** A key that is none of the long-term assets fields has no effect on the record. */
  lemma LongTermAssetsIgnoresOtherKeys(kw: Kwargs, k: string, v: real)
    requires k !in TermNames(LongTermAssetsLeaves) && k != "total_long_term_assets"
    ensures MakeLongTermAssets(kw[k := v]) == MakeLongTermAssets(kw)
  {
    SignedSumIgnoresOtherKeys(kw, LongTermAssetsLeaves, k, v);
  }

  /** Resolved current liabilities. */
  datatype CurrentLiabilities = CurrentLiabilities(
    accountsPayable: real,
    shortTermLoans: real,
    accruedExpenses: real,
    deferredRevenue: real,
    currentPortionOfLongTermDebt: real,
    totalCurrentLiabilities: real)

  const CurrentLiabilitiesLeaves: seq<Term> := [
    Plus("accounts_payable"), Plus("short_term_loans"), Plus("accrued_expenses"),
    Plus("deferred_revenue"), Plus("current_portion_of_long_term_debt")]

  /** Constructs current liabilities; absent leaves default to 0. */
  function MakeCurrentLiabilities(kw: Kwargs): (cl: CurrentLiabilities)
    ensures && cl.accountsPayable == Get(kw, "accounts_payable")
            && cl.shortTermLoans == Get(kw, "short_term_loans")
            && cl.accruedExpenses == Get(kw, "accrued_expenses")
            && cl.deferredRevenue == Get(kw, "deferred_revenue")
            && cl.currentPortionOfLongTermDebt == Get(kw, "current_portion_of_long_term_debt")
    ensures Derived(kw, "total_current_liabilities", cl.totalCurrentLiabilities,
      cl.accountsPayable + cl.shortTermLoans + cl.accruedExpenses
      + cl.deferredRevenue + cl.currentPortionOfLongTermDebt)
  {
    CurrentLiabilities(
      Get(kw, "accounts_payable"),
      Get(kw, "short_term_loans"),
      Get(kw, "accrued_expenses"),
      Get(kw, "deferred_revenue"),
      Get(kw, "current_portion_of_long_term_debt"),
      Resolve(kw, "total_current_liabilities", SignedSum(kw, CurrentLiabilitiesLeaves)))
  }

  /** The record's fields by name, as the keyword arguments that rebuild it. */
  function CurrentLiabilitiesFields(cl: CurrentLiabilities): (kw: Kwargs) {
    map[
      "accounts_payable" := cl.accountsPayable,
      "short_term_loans" := cl.shortTermLoans,
      "accrued_expenses" := cl.accruedExpenses,
      "deferred_revenue" := cl.deferredRevenue,
      "current_portion_of_long_term_debt" := cl.currentPortionOfLongTermDebt,
      "total_current_liabilities" := cl.totalCurrentLiabilities]
  }

  /** Rebuilding current liabilities from its own fields gives the record back. */
  lemma CurrentLiabilitiesRoundTrip(cl: CurrentLiabilities)
    ensures MakeCurrentLiabilities(CurrentLiabilitiesFields(cl)) == cl
  {
  }

  /** A key that is none of the current liabilities fields has no effect on the record. */
  lemma CurrentLiabilitiesIgnoresOtherKeys(kw: Kwargs, k: string, v: real)
    requires k !in TermNames(CurrentLiabilitiesLeaves) && k != "total_current_liabilities"
    ensures MakeCurrentLiabilities(kw[k := v]) == MakeCurrentLiabilities(kw)
  {
    SignedSumIgnoresOtherKeys(kw, CurrentLiabilitiesLeaves, k, v);
  }

  /** Resolved long-term liabilities. */
  datatype LongTermLiabilities = LongTermLiabilities(
    longTermDebt: real,
    deferredTaxLiabilities: real,
    pensionLiabilities: real,
    leaseLiabilities: real,
    otherNonCurrentLiabilities: real,
    totalLongTermLiabilities: real)

  const LongTermLiabilitiesLeaves: seq<Term> := [
    Plus("long_term_debt"), Plus("deferred_tax_liabilities"), Plus("pension_liabilities"),
    Plus("lease_liabilities"), Plus("other_non_current_liabilities")]

  /** Constructs long-term liabilities; absent leaves default to 0. */
  function MakeLongTermLiabilities(kw: Kwargs): (ltl: LongTermLiabilities)
    ensures && ltl.longTermDebt == Get(kw, "long_term_debt")
            && ltl.deferredTaxLiabilities == Get(kw, "deferred_tax_liabilities")
            && ltl.pensionLiabilities == Get(kw, "pension_liabilities")
            && ltl.leaseLiabilities == Get(kw, "lease_liabilities")
            && ltl.otherNonCurrentLiabilities == Get(kw, "other_non_current_liabilities")
    ensures Derived(kw, "total_long_term_liabilities", ltl.totalLongTermLiabilities,
      ltl.longTermDebt + ltl.deferredTaxLiabilities + ltl.pensionLiabilities
      + ltl.leaseLiabilities + ltl.otherNonCurrentLiabilities)
  {
    LongTermLiabilities(
      Get(kw, "long_term_debt"),
      Get(kw, "deferred_tax_liabilities"),
      Get(kw, "pension_liabilities"),
      Get(kw, "lease_liabilities"),
      Get(kw, "other_non_current_liabilities"),
      Resolve(kw, "total_long_term_liabilities", SignedSum(kw, LongTermLiabilitiesLeaves)))
  }

  /** The record's fields by name, as the keyword arguments that rebuild it. */
  function LongTermLiabilitiesFields(ltl: LongTermLiabilities): (kw: Kwargs) {
    map[
      "long_term_debt" := ltl.longTermDebt,
      "deferred_tax_liabilities" := ltl.deferredTaxLiabilities,
      "pension_liabilities" := ltl.pensionLiabilities,
      "lease_liabilities" := ltl.leaseLiabilities,
      "other_non_current_liabilities" := ltl.otherNonCurrentLiabilities,
      "total_long_term_liabilities" := ltl.totalLongTermLiabilities]
  }

  /** Rebuilding long-term liabilities from its own fields gives the record back. */
  lemma LongTermLiabilitiesRoundTrip(ltl: LongTermLiabilities)
    ensures MakeLongTermLiabilities(LongTermLiabilitiesFields(ltl)) == ltl
  {
  }

  /** A key that is none of the long-term liabilities fields has no effect on the record. */
  lemma LongTermLiabilitiesIgnoresOtherKeys(kw: Kwargs, k: string, v: real)
    requires k !in TermNames(LongTermLiabilitiesLeaves) && k != "total_long_term_liabilities"
    ensures MakeLongTermLiabilities(kw[k := v]) == MakeLongTermLiabilities(kw)
  {
    SignedSumIgnoresOtherKeys(kw, LongTermLiabilitiesLeaves, k, v);
  }

  /** Resolved equity. */
  datatype Equity = Equity(
    commonStock: real,
    retainedEarnings: real,
    additionalPaidInCapital: real,
    treasuryStock: real,
    totalEquity: real)

  /** Treasury stock is the one leaf that is subtracted. */
  const EquityLeaves: seq<Term> := [
    Plus("common_stock"), Plus("retained_earnings"), Plus("additional_paid_in_capital"),
    Minus("treasury_stock")]

  /** Constructs equity; absent leaves default to 0. */
  function MakeEquity(kw: Kwargs): (eq: Equity)
    ensures && eq.commonStock == Get(kw, "common_stock")
            && eq.retainedEarnings == Get(kw, "retained_earnings")
            && eq.additionalPaidInCapital == Get(kw, "additional_paid_in_capital")
            && eq.treasuryStock == Get(kw, "treasury_stock")
    ensures Derived(kw, "total_equity", eq.totalEquity,
      eq.commonStock + eq.retainedEarnings + eq.additionalPaidInCapital - eq.treasuryStock)
  {
    Equity(
      Get(kw, "common_stock"),
      Get(kw, "retained_earnings"),
      Get(kw, "additional_paid_in_capital"),
      Get(kw, "treasury_stock"),
      Resolve(kw, "total_equity", SignedSum(kw, EquityLeaves)))
  }

  /** The record's fields by name, as the keyword arguments that rebuild it. */
  function EquityFields(eq: Equity): (kw: Kwargs) {
    map[
      "common_stock" := eq.commonStock,
      "retained_earnings" := eq.retainedEarnings,
      "additional_paid_in_capital" := eq.additionalPaidInCapital,
      "treasury_stock" := eq.treasuryStock,
      "total_equity" := eq.totalEquity]
  }

  /** Rebuilding equity from its own fields gives the record back. */
  lemma EquityRoundTrip(eq: Equity)
    ensures MakeEquity(EquityFields(eq)) == eq
  {
  }

  /** A key that is none of the equity fields has no effect on the resolved equity. */
  lemma EquityIgnoresOtherKeys(kw: Kwargs, k: string, v: real)
    requires k !in TermNames(EquityLeaves) && k != "total_equity"
    ensures MakeEquity(kw[k := v]) == MakeEquity(kw)
  {
    SignedSumIgnoresOtherKeys(kw, EquityLeaves, k, v);
  }

  // ---------------------------------------------------------------------------
  // Balance statement
  // ---------------------------------------------------------------------------

  /**
   * How the statement treats the accounting identity. `Strict` resolves
   * `total_liabilities_and_equity` and fails unless it equals `total_assets`;
   * `Lenient` has no such field and no check.
   */
  datatype BalancePolicy = Strict | Lenient

  /** A resolved balance statement; `totalLiabilitiesAndEquity` exists only under `Strict`. */
  datatype BalanceStatement = BalanceStatement(
    currentAssets: CurrentAssets,
    longTermAssets: LongTermAssets,
    currentLiabilities: CurrentLiabilities,
    longTermLiabilities: LongTermLiabilities,
    equity: Equity,
    totalAssets: real,
    totalLiabilities: real,
    totalEquity: real,
    totalLiabilitiesAndEquity: Option<real>)

  /**
   * Constructs a balance statement from its own keyword arguments and its five
   * resolved sub-statements. Each total is its supplied value or, when unset,
   * the sum of the sub-statement totals it aggregates. Under `Strict` the
   * statement exists only when total assets equal total liabilities and equity
   * (itself supplied or computed); otherwise construction fails with both values.
   */
  function MakeBalanceStatement(
    kw: Kwargs, ca: CurrentAssets, lta: LongTermAssets, cl: CurrentLiabilities,
    ltl: LongTermLiabilities, eq: Equity, policy: BalancePolicy)
    : (r: Result<BalanceStatement, BuildError>)
    ensures policy == Lenient ==> r.Success? && r.value.totalLiabilitiesAndEquity == None
    ensures r.Failure? ==>
      && policy == Strict
      && r.error.InvariantViolation?
      && r.error.totalAssets != r.error.totalLiabilitiesAndEquity
      && Derived(kw, "total_assets", r.error.totalAssets,
           ca.totalCurrentAssets + lta.totalLongTermAssets)
      && Derived(kw, "total_liabilities_and_equity", r.error.totalLiabilitiesAndEquity,
           Resolve(kw, "total_liabilities", cl.totalCurrentLiabilities + ltl.totalLongTermLiabilities)
           + Resolve(kw, "total_equity", eq.totalEquity))
    ensures r.Success? ==>
      var b := r.value;
      && b.currentAssets == ca && b.longTermAssets == lta
      && b.currentLiabilities == cl && b.longTermLiabilities == ltl && b.equity == eq
      && Derived(kw, "total_assets", b.totalAssets,
           b.currentAssets.totalCurrentAssets + b.longTermAssets.totalLongTermAssets)
      && Derived(kw, "total_liabilities", b.totalLiabilities,
           b.currentLiabilities.totalCurrentLiabilities
           + b.longTermLiabilities.totalLongTermLiabilities)
      && Derived(kw, "total_equity", b.totalEquity, b.equity.totalEquity)
    ensures r.Success? && policy == Strict ==>
      var b := r.value;
      && b.totalLiabilitiesAndEquity.Some?
      && Derived(kw, "total_liabilities_and_equity", b.totalLiabilitiesAndEquity.value,
           b.totalLiabilities + b.totalEquity)
      && b.totalAssets == b.totalLiabilitiesAndEquity.value
  {
    var totalAssets := Resolve(kw, "total_assets", ca.totalCurrentAssets + lta.totalLongTermAssets);
    var totalLiabilities := Resolve(kw, "total_liabilities",
      cl.totalCurrentLiabilities + ltl.totalLongTermLiabilities);
    var totalEquity := Resolve(kw, "total_equity", eq.totalEquity);
    match policy
    case Lenient =>
      Success(BalanceStatement(ca, lta, cl, ltl, eq, totalAssets, totalLiabilities, totalEquity, None))
    case Strict =>
      var totalLiabilitiesAndEquity :=
        Resolve(kw, "total_liabilities_and_equity", totalLiabilities + totalEquity);
      if totalAssets == totalLiabilitiesAndEquity then
        Success(BalanceStatement(ca, lta, cl, ltl, eq, totalAssets, totalLiabilities, totalEquity,
          Some(totalLiabilitiesAndEquity)))
      else
        Failure(InvariantViolation(totalAssets, totalLiabilitiesAndEquity))
  }

  /** The statement's own totals by name, as the keyword arguments that rebuild it. */
  function BalanceFields(b: BalanceStatement): (kw: Kwargs) {
    var totals := map[
      "total_assets" := b.totalAssets,
      "total_liabilities" := b.totalLiabilities,
      "total_equity" := b.totalEquity];
    match b.totalLiabilitiesAndEquity
    case Some(tle) => totals["total_liabilities_and_equity" := tle]
    case None => totals
  }

  /**
   * Supplied totals win: reconstructing a statement from its own totals and
   * sub-statements, under the same policy, gives the same statement back.
   */
  lemma BalanceRoundTrip(
    kw: Kwargs, ca: CurrentAssets, lta: LongTermAssets, cl: CurrentLiabilities,
    ltl: LongTermLiabilities, eq: Equity, policy: BalancePolicy)
    requires MakeBalanceStatement(kw, ca, lta, cl, ltl, eq, policy).Success?
    ensures var b := MakeBalanceStatement(kw, ca, lta, cl, ltl, eq, policy).value;
      MakeBalanceStatement(BalanceFields(b), ca, lta, cl, ltl, eq, policy) == Success(b)
  {
  }

  /**
   * The two variants agree on every total they share; `Strict` succeeds exactly
   * when the `Lenient` statement's total assets equal total liabilities and
   * equity, the latter taken as supplied or as the lenient liabilities plus equity.
   */
  lemma StrictAgainstLenient(
    kw: Kwargs, ca: CurrentAssets, lta: LongTermAssets, cl: CurrentLiabilities,
    ltl: LongTermLiabilities, eq: Equity)
    ensures var strict := MakeBalanceStatement(kw, ca, lta, cl, ltl, eq, Strict);
      var lenient := MakeBalanceStatement(kw, ca, lta, cl, ltl, eq, Lenient).value;
      && (strict.Success? <==>
            lenient.totalAssets == Resolve(kw, "total_liabilities_and_equity",
                                           lenient.totalLiabilities + lenient.totalEquity))
      && (strict.Success? ==>
            strict.value == lenient.(totalLiabilitiesAndEquity := Some(lenient.totalAssets)))
  {
  }

  /**
   * With no balance-statement total supplied, the strict statement exists exactly
   * when the sub-statement totals satisfy assets = liabilities + equity.
   */
  lemma StrictBalancesSubStatements(
    kw: Kwargs, ca: CurrentAssets, lta: LongTermAssets, cl: CurrentLiabilities,
    ltl: LongTermLiabilities, eq: Equity)
    requires "total_assets" !in kw && "total_liabilities" !in kw
    requires "total_equity" !in kw && "total_liabilities_and_equity" !in kw
    ensures MakeBalanceStatement(kw, ca, lta, cl, ltl, eq, Strict).Success? <==>
      ca.totalCurrentAssets + lta.totalLongTermAssets ==
        cl.totalCurrentLiabilities + ltl.totalLongTermLiabilities + eq.totalEquity
  {
  }

  // ---------------------------------------------------------------------------
  // Worked examples
  // ---------------------------------------------------------------------------

  /** Five current-asset leaves and no supplied total give their sum. */
  lemma CurrentAssetsFromLeaves()
    ensures MakeCurrentAssets(map[
      "cash_and_cash_equivalents" := 10000.0, "accounts_receivable" := 5000.0,
      "inventory" := 8000.0, "prepaid_expenses" := 2000.0,
      "short_term_investments" := 3000.0]).totalCurrentAssets == 28000.0
  {
  }

  /** A supplied total is kept even though the leaves sum to something else. */
  lemma CurrentAssetsSuppliedTotal()
    ensures MakeCurrentAssets(map[
      "cash_and_cash_equivalents" := 1500.0, "total_current_assets" := 25000.0]).totalCurrentAssets
      == 25000.0
  {
  }

  /** Treasury stock is subtracted from the other equity leaves. */
  lemma EquityFromLeaves()
    ensures MakeEquity(map[
      "common_stock" := 20000.0, "retained_earnings" := 10000.0,
      "additional_paid_in_capital" := 5000.0, "treasury_stock" := 2000.0]).totalEquity == 33000.0
  {
  }

  /**
   * Sub-statement totals 50000 / 150000 / 30000 / 120000 / 70000 do not balance:
   * the lenient statement still exists, the strict one reports 200000 against 220000.
   */
  lemma MismatchedTotals()
    ensures var ca := MakeCurrentAssets(map["total_current_assets" := 50000.0]);
      var lta := MakeLongTermAssets(map["total_long_term_assets" := 150000.0]);
      var cl := MakeCurrentLiabilities(map["total_current_liabilities" := 30000.0]);
      var ltl := MakeLongTermLiabilities(map["total_long_term_liabilities" := 120000.0]);
      var eq := MakeEquity(map["total_equity" := 70000.0]);
      var lenient := MakeBalanceStatement(map[], ca, lta, cl, ltl, eq, Lenient);
      && lenient.Success?
      && lenient.value.totalAssets == 200000.0
      && lenient.value.totalLiabilities == 150000.0
      && lenient.value.totalEquity == 70000.0
      && MakeBalanceStatement(map[], ca, lta, cl, ltl, eq, Strict)
         == Failure(InvariantViolation(200000.0, 220000.0))
  {
  }

  /** Sub-statement totals 60000 / 140000 / 40000 / 80000 / 80000 balance under both policies. */
  lemma ConsistentTotals()
    ensures var ca := MakeCurrentAssets(map["total_current_assets" := 60000.0]);
      var lta := MakeLongTermAssets(map["total_long_term_assets" := 140000.0]);
      var cl := MakeCurrentLiabilities(map["total_current_liabilities" := 40000.0]);
      var ltl := MakeLongTermLiabilities(map["total_long_term_liabilities" := 80000.0]);
      var eq := MakeEquity(map["total_equity" := 80000.0]);
      var strict := MakeBalanceStatement(map[], ca, lta, cl, ltl, eq, Strict);
      && strict.Success?
      && strict.value.totalAssets == 200000.0
      && strict.value.totalAssets == strict.value.totalLiabilities + strict.value.totalEquity
      && var lenient := MakeBalanceStatement(map[], ca, lta, cl, ltl, eq, Lenient);
      && lenient.Success?
      && lenient.value.totalAssets == 200000.0
      && lenient.value.totalAssets == lenient.value.totalLiabilities + lenient.value.totalEquity
  {
  }
}

=== FILE: derivation.dfy ===
/**
 * The derivation engine shared by every statement entity: raw keyword arguments,
 * the "supplied wins, else compute" rule and the signed sum of named leaf fields
 * from which every sub-statement total is computed.
 */
module Derivation {

  /**
   * The keyword arguments an entity is constructed from. A name in the map is a
   * supplied, non-null value; a name outside it is unset. Names that are not
   * fields of the entity may be present and are ignored.
   */
  type Kwargs = map<string, real>

  /** The value of `name`, with 0 for an absent leaf. */
  function Get(kw: Kwargs, name: string): (r: real) {
    if name in kw then kw[name] else 0.0
  }

  /** One leaf field of a total, added or subtracted. */
  datatype Term = Plus(name: string) | Minus(name: string)

  /** The names of the leaf fields a total is computed from, in order. */
  function TermNames(terms: seq<Term>): (names: seq<string>)
    ensures |names| == |terms|
    ensures forall i :: 0 <= i < |terms| ==> names[i] == terms[i].name
  {
    seq(|terms|, i requires 0 <= i < |terms| => terms[i].name)
  }

  /** What one term contributes to its total. */
  function Contribution(kw: Kwargs, t: Term): (r: real) {
    match t
    case Plus(n) => Get(kw, n)
    case Minus(n) => -Get(kw, n)
  }

  /** The signed sum of the named leaves, absent leaves counting 0. */
  function SignedSum(kw: Kwargs, terms: seq<Term>): (r: real)
    decreases |terms|
  {
    if |terms| == 0 then 0.0 else Contribution(kw, terms[0]) + SignedSum(kw, terms[1..])
  }

  /**
   * The rule every derived field follows: a supplied value is taken verbatim,
   * whatever the other fields are; only an unset field is computed.
   */
  function Resolve(kw: Kwargs, name: string, computed: real): (r: real)
    ensures name in kw ==> r == kw[name]
    ensures name !in kw ==> r == computed
  {
    if name in kw then kw[name] else computed
  }

  /**
   * The contract of one derived field: the supplied value when `name` is
   * supplied, otherwise the value of its formula over already-resolved fields.
   */
  predicate Derived(kw: Kwargs, name: string, value: real, formula: real) {
    if name in kw then value == kw[name] else value == formula
  }

  /**
   * A resolved field depends on no other keyword argument, and feeding the
   * resolved value back in as supplied leaves it unchanged, whatever the formula.
   */
  lemma ResolveReadsOnlyItsName(kw: Kwargs, name: string, c: real, c': real, k: string, v: real)
    ensures k != name ==> Resolve(kw[k := v], name, c) == Resolve(kw, name, c)
    ensures Resolve(kw[name := Resolve(kw, name, c)], name, c') == Resolve(kw, name, c)
  {
  }

  /** Why a statement could not be constructed. */
  datatype BuildError =
    | MissingRequiredFields(names: seq<string>)
    | InvariantViolation(totalAssets: real, totalLiabilitiesAndEquity: real)

  /** A key that is not one of the leaves has no influence on their sum. */
  lemma {:induction false} SignedSumIgnoresOtherKeys(kw: Kwargs, terms: seq<Term>, k: string, v: real)
    requires k !in TermNames(terms)
    ensures SignedSum(kw[k := v], terms) == SignedSum(kw, terms)
    decreases |terms|
  {
    if |terms| > 0 {
      assert TermNames(terms[1..]) == TermNames(terms)[1..];
      SignedSumIgnoresOtherKeys(kw, terms[1..], k, v);
    }
  }

  /** The sum over two groups of leaves is the sum of the groups' sums. */
  lemma {:induction false} SignedSumAppend(kw: Kwargs, a: seq<Term>, b: seq<Term>)
    ensures SignedSum(kw, a + b) == SignedSum(kw, a) + SignedSum(kw, b)
    decreases |a|
  {
    if |a| > 0 {
      assert (a + b)[1..] == a[1..] + b;
      SignedSumAppend(kw, a[1..], b);
    } else {
      assert a + b == b;
    }
  }

  /** When none of the leaves is supplied, the computed total is 0. */
  lemma {:induction false} SignedSumOfUnsetLeaves(kw: Kwargs, terms: seq<Term>)
    requires forall i :: 0 <= i < |terms| ==> terms[i].name !in kw
    ensures SignedSum(kw, terms) == 0.0
    decreases |terms|
  {
    if |terms| > 0 {
      SignedSumOfUnsetLeaves(kw, terms[1..]);
    }
  }
}

=== FILE: dicts.dfy ===
/**
 * Insertion-ordered dictionaries as association lists, with the semantics of a
 * Python dict: assigning to a present key replaces its value in place, assigning
 * to a new key appends it, and building a dict from a sequence of pairs keeps
 * the first position and the last value of every key.
 */
module Dicts {
  import opened Wrappers

  /** The keys of an association list, in order. */
  function Keys<V>(ms: seq<(string, V)>): (ks: seq<string>)
    ensures |ks| == |ms|
    ensures forall i :: 0 <= i < |ms| ==> ks[i] == ms[i].0
  {
    seq(|ms|, i requires 0 <= i < |ms| => ms[i].0)
  }

  /** No key occurs twice: the list is a dict. */
  predicate DistinctKeys<V>(ms: seq<(string, V)>) {
    forall i, j :: 0 <= i < j < |ms| ==> ms[i].0 != ms[j].0
  }

  /** The value of the last pair with key `k`, the one a dict built from `ms` keeps. */
  function Lookup<V>(ms: seq<(string, V)>, k: string): (r: Option<V>)
    decreases |ms|
  {
    if |ms| == 0 then None
    else if ms[|ms| - 1].0 == k then Some(ms[|ms| - 1].1)
    else Lookup(ms[..|ms| - 1], k)
  }

  /** A key has an entry exactly when some pair carries it. */
  lemma {:induction false} LookupSomeIffKey<V>(ms: seq<(string, V)>, k: string)
    ensures Lookup(ms, k).Some? <==> k in Keys(ms)
    decreases |ms|
  {
    if |ms| > 0 {
      var p := ms[..|ms| - 1];
      LookupSomeIffKey(p, k);
      assert Keys(ms) == Keys(p) + [ms[|ms| - 1].0];
    }
  }

  /** `d[k] = v` on a dict: replace the value in place, or append a new pair. */
  function Put<V>(ms: seq<(string, V)>, k: string, v: V): (r: seq<(string, V)>)
    ensures forall p :: p in r ==> p in ms || p == (k, v)
    decreases |ms|
  {
    if |ms| == 0 then [(k, v)]
    else if ms[0].0 == k then [(k, v)] + ms[1..]
    else [ms[0]] + Put(ms[1..], k, v)
  }

  /** The keys after an assignment: unchanged when present, `k` appended otherwise. */
  lemma {:induction false} PutKeys<V>(ms: seq<(string, V)>, k: string, v: V)
    ensures Keys(Put(ms, k, v)) == if k in Keys(ms) then Keys(ms) else Keys(ms) + [k]
    decreases |ms|
  {
    if |ms| > 0 {
      var rest := ms[1..];
      KeysCons(ms[0], rest);
      assert ms == [ms[0]] + rest;
      if ms[0].0 != k {
        PutKeys(rest, k, v);
        KeysCons(ms[0], Put(rest, k, v));
        assert k in Keys(ms) <==> k in Keys(rest);
      } else {
        KeysCons((k, v), rest);
      }
    }
  }

  /** The keys of a list with one more pair in front. */
  lemma KeysCons<V>(p: (string, V), ms: seq<(string, V)>)
    ensures Keys([p] + ms) == [p.0] + Keys(ms)
  {
  }

  /** Assigning into a dict gives a dict. */
  lemma PutDistinct<V>(ms: seq<(string, V)>, k: string, v: V)
    requires DistinctKeys(ms)
    ensures DistinctKeys(Put(ms, k, v))
  {
    var r := Put(ms, k, v);
    PutKeys(ms, k, v);
    assert forall i :: 0 <= i < |r| ==> r[i].0 == Keys(r)[i];
    assert forall i :: 0 <= i < |ms| ==> ms[i].0 == Keys(ms)[i];
  }

  /** On a dict, the assigned key now maps to `v` and every other key is unchanged. */
  lemma {:induction false} PutLookup<V>(ms: seq<(string, V)>, k: string, v: V, k': string)
    requires DistinctKeys(ms)
    ensures Lookup(Put(ms, k, v), k') == if k' == k then Some(v) else Lookup(ms, k')
    decreases |ms|
  {
    if |ms| > 0 {
      var rest := ms[1..];
      assert DistinctKeys(rest);
      LookupFront(ms, k');
      if ms[0].0 == k {
        LookupFront([(k, v)] + rest, k');
        assert ([(k, v)] + rest)[1..] == rest;
        LookupSomeIffKey(rest, k);
        assert k !in Keys(rest);
      } else {
        PutLookup(rest, k, v, k');
        LookupFront([ms[0]] + Put(rest, k, v), k');
        assert ([ms[0]] + Put(rest, k, v))[1..] == Put(rest, k, v);
      }
    }
  }

  /** `Lookup` read from the front: a later pair overrides the first one. */
  lemma {:induction false} LookupFront<V>(ms: seq<(string, V)>, k: string)
    requires |ms| > 0
    ensures Lookup(ms, k) ==
      if Lookup(ms[1..], k).Some? then Lookup(ms[1..], k)
      else if ms[0].0 == k then Some(ms[0].1) else None
    decreases |ms|
  {
    if |ms| > 1 {
      var p := ms[..|ms| - 1];
      LookupFront(p, k);
      assert p[1..] == ms[1..][..|ms[1..]| - 1];
    }
  }

  /** The dict `dict(ms)`: the pairs assigned one after another into an empty dict. */
  function Collect<V>(ms: seq<(string, V)>): (r: seq<(string, V)>)
    ensures forall p :: p in r ==> p in ms
    decreases |ms|
  {
    if |ms| == 0 then []
    else Put(Collect(ms[..|ms| - 1]), ms[|ms| - 1].0, ms[|ms| - 1].1)
  }

  /** The first occurrence of every key, in order. */
  function FirstOccurrences(ks: seq<string>): (r: seq<string>)
    decreases |ks|
  {
    if |ks| == 0 then []
    else
      var d := FirstOccurrences(ks[..|ks| - 1]);
      if ks[|ks| - 1] in d then d else d + [ks[|ks| - 1]]
  }

  /**
   * Building a dict collapses repeated keys to one entry, placed where the key
   * first occurred and holding the value of its last occurrence.
   */
  lemma {:induction false} CollectIsDict<V>(ms: seq<(string, V)>)
    ensures DistinctKeys(Collect(ms))
    ensures Keys(Collect(ms)) == FirstOccurrences(Keys(ms))
    ensures forall k :: Lookup(Collect(ms), k) == Lookup(ms, k)
    decreases |ms|
  {
    if |ms| > 0 {
      var p := ms[..|ms| - 1];
      var (k, v) := ms[|ms| - 1];
      CollectIsDict(p);
      PutDistinct(Collect(p), k, v);
      PutKeys(Collect(p), k, v);
      assert Keys(ms)[..|ms| - 1] == Keys(p);
      forall k' ensures Lookup(Collect(ms), k') == Lookup(ms, k') {
        PutLookup(Collect(p), k, v, k');
      }
    }
  }

  /** A list that already is a dict is rebuilt unchanged. */
  lemma {:induction false} CollectOfDict<V>(ms: seq<(string, V)>)
    requires DistinctKeys(ms)
    ensures Collect(ms) == ms
    decreases |ms|
  {
    if |ms| > 0 {
      var p := ms[..|ms| - 1];
      var (k, v) := ms[|ms| - 1];
      assert DistinctKeys(p);
      CollectOfDict(p);
      PutFresh(p, k, v);
    }
  }

  /** Assigning a key the dict does not hold appends it. */
  lemma {:induction false} PutFresh<V>(ms: seq<(string, V)>, k: string, v: V)
    requires forall i :: 0 <= i < |ms| ==> ms[i].0 != k
    ensures Put(ms, k, v) == ms + [(k, v)]
    decreases |ms|
  {
    if |ms| > 0 {
      PutFresh(ms[1..], k, v);
      assert ms == [ms[0]] + ms[1..];
    }
  }
}

=== FILE: income_model.dfy ===
/**
 * The income side: cost of goods sold, operating expenses and the income
 * statement whose derived fields form the chain
 * gross profit -> EBIT -> EBITDA / EBT -> net income -> total expenses -> margins.
 */
module IncomeModel {
  import opened Wrappers
  import opened Derivation

  // ---------------------------------------------------------------------------
  // Cost of goods sold
  // ---------------------------------------------------------------------------

  /** A resolved cost-of-goods-sold record: five leaves and their total. */
  datatype Cogs = Cogs(
    rawMaterialsCost: real,
    laborCost: real,
    manufacturingOverhead: real,
    freightAndShipping: real,
    inventoryChanges: real,
    totalCogs: real)

  /** The leaves `total_cogs` is computed from. */
  const CogsLeaves: seq<Term> := [
    Plus("raw_materials_cost"), Plus("labor_cost"), Plus("manufacturing_overhead"),
    Plus("freight_and_shipping"), Plus("inventory_changes")]

  /** Every field name of the record. */
  const CogsFieldNames: seq<string> := TermNames(CogsLeaves) + ["total_cogs"]

  /** The record's fields by name, as the keyword arguments that rebuild it. */
  function CogsFields(c: Cogs): (kw: Kwargs) {
    map[
      "raw_materials_cost" := c.rawMaterialsCost,
      "labor_cost" := c.laborCost,
      "manufacturing_overhead" := c.manufacturingOverhead,
      "freight_and_shipping" := c.freightAndShipping,
      "inventory_changes" := c.inventoryChanges,
      "total_cogs" := c.totalCogs]
  }

  /** Constructs a cost-of-goods-sold record; absent leaves default to 0. */
  function MakeCogs(kw: Kwargs): (c: Cogs)
    ensures forall n :: n in TermNames(CogsLeaves) ==> CogsFields(c)[n] == Get(kw, n)
    ensures "total_cogs" in kw ==> c.totalCogs == kw["total_cogs"]
    ensures "total_cogs" !in kw ==>
      c.totalCogs == c.rawMaterialsCost + c.laborCost + c.manufacturingOverhead
                     + c.freightAndShipping + c.inventoryChanges
  {
    Cogs(
      Get(kw, "raw_materials_cost"),
      Get(kw, "labor_cost"),
      Get(kw, "manufacturing_overhead"),
      Get(kw, "freight_and_shipping"),
      Get(kw, "inventory_changes"),
      Resolve(kw, "total_cogs", SignedSum(kw, CogsLeaves)))
  }

  /** Rebuilding a record from its own fields gives the record back. */
  lemma CogsRoundTrip(c: Cogs)
    ensures MakeCogs(CogsFields(c)) == c
  {
  }

  /** Keyword arguments that are not COGS fields have no effect on the record. */
  lemma CogsIgnoresOtherKeys(kw: Kwargs, k: string, v: real)
    requires k !in CogsFieldNames
    ensures MakeCogs(kw[k := v]) == MakeCogs(kw)
  {
    SignedSumIgnoresOtherKeys(kw, CogsLeaves, k, v);
  }

  // ---------------------------------------------------------------------------
  // Operating expenses
  // ---------------------------------------------------------------------------

  /**
   * A resolved operating-expenses record: the selling, general and administrative
   * leaves, the research and development leaves, the other operating leaves, one
   * subtotal per group and the overall total.
   */
  datatype OperatingExpenses = OperatingExpenses(
    salesSalaries: real,
    advertisingMarketing: real,
    salesCommissions: real,
    salesTravel: real,
    executiveSalaries: real,
    officeRentUtilities: real,
    accountingFees: real,
    insurance: real,
    depreciation: real,
    amortization: real,
    badDebt: real,
    consumables: real,
    officeSupplies: real,
    professionalFees: real,
    permitsLicensesSubscriptions: real,
    freightCartagePostage: real,
    hiringFees: real,
    totalSgAndA: real,
    rAndDSalaries: real,
    rAndDMaterials: real,
    rAndDTesting: real,
    totalRAndD: real,
    maintenanceRepairs: real,
    employeeBenefits: real,
    trainingDevelopment: real,
    travelMeals: real,
    impairmentCosts: real,
    donations: real,
    totalOtherOperating: real,
    totalOperatingExpenses: real)

  /** The selling leaves of `total_sg_and_a`. */
  const SellingLeaves: seq<Term> := [
    Plus("sales_salaries"), Plus("advertising_marketing"), Plus("sales_commissions"),
    Plus("sales_travel")]

  /**
   * The general and administrative leaves of `total_sg_and_a`. `hiring_fees` is
   * a general and administrative field of the entity but is not one of them.
   */
  const GeneralAdminLeaves: seq<Term> := [
    Plus("executive_salaries"), Plus("office_rent_utilities"), Plus("accounting_fees"),
    Plus("insurance"), Plus("depreciation"), Plus("amortization"), Plus("bad_debt"),
    Plus("consumables"), Plus("office_supplies"), Plus("professional_fees"),
    Plus("permits_licenses_subscriptions"), Plus("freight_cartage_postage")]

  /** The leaves `total_sg_and_a` is computed from. */
  const SgAndALeaves: seq<Term> := SellingLeaves + GeneralAdminLeaves

  /** The sixteen-leaf sum written out. */
  lemma SgAndASum(kw: Kwargs)
    ensures SignedSum(kw, SgAndALeaves) ==
      Get(kw, "sales_salaries") + Get(kw, "advertising_marketing") + Get(kw, "sales_commissions")
      + Get(kw, "sales_travel") + Get(kw, "executive_salaries") + Get(kw, "office_rent_utilities")
      + Get(kw, "accounting_fees") + Get(kw, "insurance") + Get(kw, "depreciation")
      + Get(kw, "amortization") + Get(kw, "bad_debt") + Get(kw, "consumables")
      + Get(kw, "office_supplies") + Get(kw, "professional_fees")
      + Get(kw, "permits_licenses_subscriptions") + Get(kw, "freight_cartage_postage")
  {
    SignedSumAppend(kw, SellingLeaves, GeneralAdminLeaves);
  }

  /** The leaves `total_r_and_d` is computed from. */
  const RAndDLeaves: seq<Term> := [
    Plus("r_and_d_salaries"), Plus("r_and_d_materials"), Plus("r_and_d_testing")]

  /** The leaves `total_other_operating` is computed from. */
  const OtherOperatingLeaves: seq<Term> := [
    Plus("maintenance_repairs"), Plus("employee_benefits"), Plus("training_development"),
    Plus("travel_meals"), Plus("impairment_costs"), Plus("donations")]

  /**
   * Constructs an operating-expenses record. Each subtotal is computed only when
   * unset and only from its own group of leaves; the overall total, when unset,
   * adds the three resolved subtotals, whether supplied or computed.
   */
  function MakeOperatingExpenses(kw: Kwargs): (o: OperatingExpenses)
    // every leaf is its supplied value, 0 when absent
    ensures && o.salesSalaries == Get(kw, "sales_salaries")
            && o.advertisingMarketing == Get(kw, "advertising_marketing")
            && o.salesCommissions == Get(kw, "sales_commissions")
            && o.salesTravel == Get(kw, "sales_travel")
    ensures && o.executiveSalaries == Get(kw, "executive_salaries")
            && o.officeRentUtilities == Get(kw, "office_rent_utilities")
            && o.accountingFees == Get(kw, "accounting_fees")
            && o.insurance == Get(kw, "insurance")
            && o.depreciation == Get(kw, "depreciation")
            && o.amortization == Get(kw, "amortization")
            && o.badDebt == Get(kw, "bad_debt")
            && o.consumables == Get(kw, "consumables")
            && o.officeSupplies == Get(kw, "office_supplies")
            && o.professionalFees == Get(kw, "professional_fees")
            && o.permitsLicensesSubscriptions == Get(kw, "permits_licenses_subscriptions")
            && o.freightCartagePostage == Get(kw, "freight_cartage_postage")
            && o.hiringFees == Get(kw, "hiring_fees")
    ensures && o.rAndDSalaries == Get(kw, "r_and_d_salaries")
            && o.rAndDMaterials == Get(kw, "r_and_d_materials")
            && o.rAndDTesting == Get(kw, "r_and_d_testing")
    ensures && o.maintenanceRepairs == Get(kw, "maintenance_repairs")
            && o.employeeBenefits == Get(kw, "employee_benefits")
            && o.trainingDevelopment == Get(kw, "training_development")
            && o.travelMeals == Get(kw, "travel_meals")
            && o.impairmentCosts == Get(kw, "impairment_costs")
            && o.donations == Get(kw, "donations")
    ensures Derived(kw, "total_sg_and_a", o.totalSgAndA,
      o.salesSalaries + o.advertisingMarketing + o.salesCommissions + o.salesTravel
      + o.executiveSalaries + o.officeRentUtilities + o.accountingFees + o.insurance
      + o.depreciation + o.amortization + o.badDebt + o.consumables + o.officeSupplies
      + o.professionalFees + o.permitsLicensesSubscriptions + o.freightCartagePostage)
    ensures Derived(kw, "total_r_and_d", o.totalRAndD,
      o.rAndDSalaries + o.rAndDMaterials + o.rAndDTesting)
    ensures Derived(kw, "total_other_operating", o.totalOtherOperating,
      o.maintenanceRepairs + o.employeeBenefits + o.trainingDevelopment
      + o.travelMeals + o.impairmentCosts + o.donations)
    ensures Derived(kw, "total_operating_expenses", o.totalOperatingExpenses,
      o.totalSgAndA + o.totalRAndD + o.totalOtherOperating)
  {
    SgAndASum(kw);
    var sgAndA := Resolve(kw, "total_sg_and_a", SignedSum(kw, SgAndALeaves));
    var rAndD := Resolve(kw, "total_r_and_d", SignedSum(kw, RAndDLeaves));
    var other := Resolve(kw, "total_other_operating", SignedSum(kw, OtherOperatingLeaves));
    OperatingExpenses(
      Get(kw, "sales_salaries"),
      Get(kw, "advertising_marketing"),
      Get(kw, "sales_commissions"),
      Get(kw, "sales_travel"),
      Get(kw, "executive_salaries"),
      Get(kw, "office_rent_utilities"),
      Get(kw, "accounting_fees"),
      Get(kw, "insurance"),
      Get(kw, "depreciation"),
      Get(kw, "amortization"),
      Get(kw, "bad_debt"),
      Get(kw, "consumables"),
      Get(kw, "office_supplies"),
      Get(kw, "professional_fees"),
      Get(kw, "permits_licenses_subscriptions"),
      Get(kw, "freight_cartage_postage"),
      Get(kw, "hiring_fees"),
      sgAndA,
      Get(kw, "r_and_d_salaries"),
      Get(kw, "r_and_d_materials"),
      Get(kw, "r_and_d_testing"),
      rAndD,
      Get(kw, "maintenance_repairs"),
      Get(kw, "employee_benefits"),
      Get(kw, "training_development"),
      Get(kw, "travel_meals"),
      Get(kw, "impairment_costs"),
      Get(kw, "donations"),
      other,
      Resolve(kw, "total_operating_expenses", sgAndA + rAndD + other))
  }

  /**
   * Each subtotal reads only its own group of leaves and its own supplied value:
   * changing any other keyword argument, including another group's leaves or
   * `hiring_fees`, leaves it as it was.
   */
  lemma SubtotalsReadOnlyTheirGroup(kw: Kwargs, k: string, v: real)
    ensures k !in TermNames(SgAndALeaves) && k != "total_sg_and_a" ==>
      MakeOperatingExpenses(kw[k := v]).totalSgAndA == MakeOperatingExpenses(kw).totalSgAndA
    ensures k !in TermNames(RAndDLeaves) && k != "total_r_and_d" ==>
      MakeOperatingExpenses(kw[k := v]).totalRAndD == MakeOperatingExpenses(kw).totalRAndD
    ensures k !in TermNames(OtherOperatingLeaves) && k != "total_other_operating" ==>
      MakeOperatingExpenses(kw[k := v]).totalOtherOperating == MakeOperatingExpenses(kw).totalOtherOperating
  {
    if k !in TermNames(SgAndALeaves) {
      SignedSumIgnoresOtherKeys(kw, SgAndALeaves, k, v);
    }
    if k !in TermNames(RAndDLeaves) {
      SignedSumIgnoresOtherKeys(kw, RAndDLeaves, k, v);
    }
    if k !in TermNames(OtherOperatingLeaves) {
      SignedSumIgnoresOtherKeys(kw, OtherOperatingLeaves, k, v);
    }
  }

  /** `hiring_fees` is kept as a leaf but contributes to none of the totals. */
  lemma HiringFeesInNoTotal(kw: Kwargs, v: real)
    ensures var o, o' := MakeOperatingExpenses(kw), MakeOperatingExpenses(kw["hiring_fees" := v]);
      && o'.hiringFees == v
      && o'.totalSgAndA == o.totalSgAndA
      && o'.totalRAndD == o.totalRAndD
      && o'.totalOtherOperating == o.totalOtherOperating
      && o'.totalOperatingExpenses == o.totalOperatingExpenses
  {
    assert "hiring_fees" !in TermNames(SgAndALeaves);
    SubtotalsReadOnlyTheirGroup(kw, "hiring_fees", v);
  }

  // ---------------------------------------------------------------------------
  // Income statement
  // ---------------------------------------------------------------------------

  /** A resolved income statement: raw inputs, resolved sub-statements and derived fields. */
  datatype IncomeStatement = IncomeStatement(
    revenue: real,
    otherRevenue: real,
    cogs: Cogs,
    operatingExpenses: OperatingExpenses,
    interestExpenses: real,
    taxExpenses: real,
    extraordinaryExpenses: real,
    grossProfit: real,
    ebit: real,
    ebitda: real,
    ebt: real,
    netIncome: real,
    totalExpenses: real,
    operatingMargin: real,
    netMargin: real)

  /** The fields that have no default, in declaration order. */
  const RequiredIncomeFields: seq<string> := ["revenue", "tax_expenses"]

  /** The derived fields, in the order they are resolved. */
  const DerivedIncomeFields: seq<string> := [
    "gross_profit", "ebit", "ebitda", "ebt", "net_income", "total_expenses",
    "operating_margin", "net_margin"]

  /** The declared fields, in declaration order, that the keyword arguments leave out. */
  function AbsentFields(declared: seq<string>, kw: Kwargs): (r: seq<string>)
    decreases |declared|
  {
    if |declared| == 0 then []
    else (if declared[0] in kw then [] else [declared[0]]) + AbsentFields(declared[1..], kw)
  }

  /** The required fields missing from `kw`, in declaration order. */
  function MissingRequired(kw: Kwargs): (names: seq<string>)
    ensures names == AbsentFields(RequiredIncomeFields, kw)
    ensures forall n :: n in names <==> n in RequiredIncomeFields && n !in kw
  {
    (if "revenue" in kw then [] else ["revenue"])
    + (if "tax_expenses" in kw then [] else ["tax_expenses"])
  }

  /** A ratio to revenue, defined as 0 when revenue is 0 rather than failing. */
  function RatioToRevenue(amount: real, revenue: real): (r: real)
    ensures revenue == 0.0 ==> r == 0.0
    ensures revenue != 0.0 ==> r * revenue == amount
  {
    if revenue == 0.0 then 0.0 else amount / revenue
  }

  /**
   * Constructs an income statement from its own keyword arguments and its two
   * resolved sub-statements. Construction fails, listing them, when `revenue` or
   * `tax_expenses` is missing; otherwise every derived field is its supplied value
   * or, when unset, its formula over the already-resolved fields.
   */
  function MakeIncomeStatement(kw: Kwargs, cogs: Cogs, opex: OperatingExpenses)
    : (r: Result<IncomeStatement, BuildError>)
    ensures r.Failure? <==> "revenue" !in kw || "tax_expenses" !in kw
    ensures r.Failure? ==>
      && r.error.MissingRequiredFields?
      && r.error.names == MissingRequired(kw)
      && forall n :: n in r.error.names <==> n in RequiredIncomeFields && n !in kw
    ensures r.Success? ==>
      var s := r.value;
      && s.revenue == kw["revenue"]
      && s.taxExpenses == kw["tax_expenses"]
      && s.otherRevenue == Get(kw, "other_revenue")
      && s.interestExpenses == Get(kw, "interest_expenses")
      && s.extraordinaryExpenses == Get(kw, "extraordinary_expenses")
      && s.cogs == cogs
      && s.operatingExpenses == opex
    ensures r.Success? ==>
      var s := r.value;
      && Derived(kw, "gross_profit", s.grossProfit, s.revenue + s.otherRevenue - s.cogs.totalCogs)
      && Derived(kw, "ebit", s.ebit, s.grossProfit - s.operatingExpenses.totalOperatingExpenses)
      && Derived(kw, "ebitda", s.ebitda,
           s.ebit + s.operatingExpenses.depreciation + s.operatingExpenses.amortization)
      && Derived(kw, "ebt", s.ebt, s.ebit - s.interestExpenses)
      && Derived(kw, "net_income", s.netIncome, s.ebt - s.taxExpenses + s.extraordinaryExpenses)
      && Derived(kw, "total_expenses", s.totalExpenses,
           s.cogs.totalCogs + s.operatingExpenses.totalOperatingExpenses
           + s.interestExpenses + s.taxExpenses + s.extraordinaryExpenses)
      && Derived(kw, "operating_margin", s.operatingMargin, RatioToRevenue(s.ebit, s.revenue))
      && Derived(kw, "net_margin", s.netMargin, RatioToRevenue(s.netIncome, s.revenue))
  {
    if "revenue" !in kw || "tax_expenses" !in kw then
      Failure(MissingRequiredFields(MissingRequired(kw)))
    else
      var revenue := kw["revenue"];
      var otherRevenue := Get(kw, "other_revenue");
      var interest := Get(kw, "interest_expenses");
      var tax := kw["tax_expenses"];
      var extraordinary := Get(kw, "extraordinary_expenses");
      var grossProfit := Resolve(kw, "gross_profit", revenue + otherRevenue - cogs.totalCogs);
      var ebit := Resolve(kw, "ebit", grossProfit - opex.totalOperatingExpenses);
      var ebitda := Resolve(kw, "ebitda", ebit + opex.depreciation + opex.amortization);
      var ebt := Resolve(kw, "ebt", ebit - interest);
      var netIncome := Resolve(kw, "net_income", ebt - tax + extraordinary);
      var totalExpenses := Resolve(kw, "total_expenses",
        cogs.totalCogs + opex.totalOperatingExpenses + interest + tax + extraordinary);
      var operatingMargin := Resolve(kw, "operating_margin", RatioToRevenue(ebit, revenue));
      var netMargin := Resolve(kw, "net_margin", RatioToRevenue(netIncome, revenue));
      Success(IncomeStatement(
        revenue, otherRevenue, cogs, opex, interest, tax, extraordinary,
        grossProfit, ebit, ebitda, ebt, netIncome, totalExpenses, operatingMargin, netMargin))
  }

  /** The statement's own scalar fields by name, as the keyword arguments that rebuild it. */
  function IncomeFields(s: IncomeStatement): (kw: Kwargs) {
    map[
      "revenue" := s.revenue,
      "other_revenue" := s.otherRevenue,
      "interest_expenses" := s.interestExpenses,
      "tax_expenses" := s.taxExpenses,
      "extraordinary_expenses" := s.extraordinaryExpenses,
      "gross_profit" := s.grossProfit,
      "ebit" := s.ebit,
      "ebitda" := s.ebitda,
      "ebt" := s.ebt,
      "net_income" := s.netIncome,
      "total_expenses" := s.totalExpenses,
      "operating_margin" := s.operatingMargin,
      "net_margin" := s.netMargin]
  }

  /**
   * Supplied values win everywhere: reconstructing a statement from its own
   * resolved fields and sub-statements gives the same statement back.
   */
  lemma IncomeRoundTrip(kw: Kwargs, cogs: Cogs, opex: OperatingExpenses)
    requires MakeIncomeStatement(kw, cogs, opex).Success?
    ensures var s := MakeIncomeStatement(kw, cogs, opex).value;
      MakeIncomeStatement(IncomeFields(s), cogs, opex) == Success(s)
  {
  }

  /**
   * With no derived field supplied, the chain collapses to closed forms over the
   * raw inputs and the two sub-statement totals.
   */
  lemma IncomeClosedForm(kw: Kwargs, cogs: Cogs, opex: OperatingExpenses)
    requires "revenue" in kw && "tax_expenses" in kw
    requires forall n :: n in DerivedIncomeFields ==> n !in kw
    ensures var s := MakeIncomeStatement(kw, cogs, opex).value;
      var operating := cogs.totalCogs + opex.totalOperatingExpenses;
      && s.ebit == s.revenue + s.otherRevenue - operating
      && s.ebitda == s.revenue + s.otherRevenue - operating + opex.depreciation + opex.amortization
      && s.netIncome == s.revenue + s.otherRevenue - operating
                        - s.interestExpenses - s.taxExpenses + s.extraordinaryExpenses
      && s.totalExpenses == operating + s.interestExpenses + s.taxExpenses + s.extraordinaryExpenses
  {
  }

  /**
   * Net income adds extraordinary expenses while total expenses counts them as an
   * expense, so with nothing derived supplied the two differ from
   * "revenue minus total expenses" by twice the extraordinary expenses.
   */
  lemma NetIncomeAgainstTotalExpenses(kw: Kwargs, cogs: Cogs, opex: OperatingExpenses)
    requires "revenue" in kw && "tax_expenses" in kw
    requires forall n :: n in DerivedIncomeFields ==> n !in kw
    ensures var s := MakeIncomeStatement(kw, cogs, opex).value;
      s.netIncome == s.revenue + s.otherRevenue - s.totalExpenses + 2.0 * s.extraordinaryExpenses
  {
    IncomeClosedForm(kw, cogs, opex);
  }

  /** With zero revenue both margins are 0 unless supplied; construction does not fail. */
  lemma ZeroRevenueMargins(kw: Kwargs, cogs: Cogs, opex: OperatingExpenses)
    requires "tax_expenses" in kw
    requires "revenue" in kw && kw["revenue"] == 0.0
    ensures MakeIncomeStatement(kw, cogs, opex).Success?
    ensures var s := MakeIncomeStatement(kw, cogs, opex).value;
      && ("operating_margin" !in kw ==> s.operatingMargin == 0.0)
      && ("net_margin" !in kw ==> s.netMargin == 0.0)
  {
  }

  /**
   * Unless supplied, each margin is the share of revenue it names: operating
   * margin times revenue is EBIT and net margin times revenue is net income.
   */
  lemma MarginsAgainstRevenue(kw: Kwargs, cogs: Cogs, opex: OperatingExpenses)
    requires MakeIncomeStatement(kw, cogs, opex).Success?
    ensures var s := MakeIncomeStatement(kw, cogs, opex).value;
      && ("operating_margin" !in kw && s.revenue != 0.0 ==> s.operatingMargin * s.revenue == s.ebit)
      && ("net_margin" !in kw && s.revenue != 0.0 ==> s.netMargin * s.revenue == s.netIncome)
  {
  }

  // ---------------------------------------------------------------------------
  // Worked examples
  // ---------------------------------------------------------------------------

  /** The keyword arguments of the income test's cost of goods sold. */
  const ExampleCogsArgs: Kwargs := map[
    "raw_materials_cost" := 20000.0, "labor_cost" := 15000.0,
    "manufacturing_overhead" := 8000.0, "freight_and_shipping" := 2000.0,
    "inventory_changes" := 1000.0]

  /** The keyword arguments of the income test's operating expenses. */
  const ExampleOpexArgs: Kwargs := map[
    "advertising_marketing" := 23.0, "sales_commissions" := 713.0, "sales_travel" := 8.9,
    "executive_salaries" := 799.0, "office_rent_utilities" := 0.0, "bad_debt" := 2.3,
    "insurance" := 3.0, "depreciation" := 9.22, "amortization" := 17900.0,
    "r_and_d_salaries" := 22.0, "r_and_d_materials" := 32.0, "r_and_d_testing" := 223.0,
    "maintenance_repairs" := 0.0, "employee_benefits" := 2.3, "impairment_costs" := 323.0,
    "training_development" := 34.0, "travel_meals" := 334.0]

  /** Leaves only: the total is their sum; a supplied total beats the leaves. */
  lemma CogsExamples()
    ensures MakeCogs(ExampleCogsArgs).totalCogs == 46000.0
    ensures MakeCogs(map["raw_materials_cost" := 800.0, "total_cogs" := 34000.0]).totalCogs == 34000.0
  {
  }

  /**
   * Supplied subtotals are kept, the unset one is computed from its group only
   * (`research_and_development` is not a field and is ignored), and the overall
   * total adds the three.
   */
  lemma OpexSuppliedSubtotals()
    ensures var o := MakeOperatingExpenses(map[
      "sales_salaries" := 300.0, "advertising_marketing" := 23.0, "total_sg_and_a" := 23000.0,
      "total_other_operating" := 2600.0, "research_and_development" := 93.0,
      "r_and_d_salaries" := 22.0, "r_and_d_materials" := 32.0, "travel_meals" := 334.0]);
      && o.totalSgAndA == 23000.0
      && o.totalRAndD == 54.0
      && o.totalOtherOperating == 2600.0
      && o.totalOperatingExpenses == 25654.0
  {
  }

  /** The test's selling and first administrative leaves, as supplied or absent. */
  lemma ExampleOpexSellingArgs()
    ensures && Get(ExampleOpexArgs, "sales_salaries") == 0.0
            && Get(ExampleOpexArgs, "advertising_marketing") == 23.0
            && Get(ExampleOpexArgs, "sales_commissions") == 713.0
            && Get(ExampleOpexArgs, "sales_travel") == 8.9
            && Get(ExampleOpexArgs, "executive_salaries") == 799.0
            && Get(ExampleOpexArgs, "office_rent_utilities") == 0.0
            && Get(ExampleOpexArgs, "accounting_fees") == 0.0
            && Get(ExampleOpexArgs, "insurance") == 3.0
  {
  }

  /** The test's remaining administrative leaves, as supplied or absent. */
  lemma ExampleOpexAdminArgs()
    ensures && Get(ExampleOpexArgs, "depreciation") == 9.22
            && Get(ExampleOpexArgs, "amortization") == 17900.0
            && Get(ExampleOpexArgs, "bad_debt") == 2.3
            && Get(ExampleOpexArgs, "consumables") == 0.0
            && Get(ExampleOpexArgs, "office_supplies") == 0.0
            && Get(ExampleOpexArgs, "professional_fees") == 0.0
            && Get(ExampleOpexArgs, "permits_licenses_subscriptions") == 0.0
            && Get(ExampleOpexArgs, "freight_cartage_postage") == 0.0
  {
  }

  /** The test's R&D and other operating leaves, as supplied or absent, and no total supplied. */
  lemma ExampleOpexOtherArgs()
    ensures && Get(ExampleOpexArgs, "r_and_d_salaries") == 22.0
            && Get(ExampleOpexArgs, "r_and_d_materials") == 32.0
            && Get(ExampleOpexArgs, "r_and_d_testing") == 223.0
            && Get(ExampleOpexArgs, "maintenance_repairs") == 0.0
            && Get(ExampleOpexArgs, "employee_benefits") == 2.3
            && Get(ExampleOpexArgs, "training_development") == 34.0
            && Get(ExampleOpexArgs, "travel_meals") == 334.0
            && Get(ExampleOpexArgs, "impairment_costs") == 323.0
            && Get(ExampleOpexArgs, "donations") == 0.0
    ensures && "total_sg_and_a" !in ExampleOpexArgs && "total_r_and_d" !in ExampleOpexArgs
            && "total_other_operating" !in ExampleOpexArgs
            && "total_operating_expenses" !in ExampleOpexArgs
  {
  }

  /**
   * Operating expenses whose leaves are those of the income test and whose
   * totals are all unset: SG&A 19458.42, R&D 277, other operating 693.3, in all
   * 20428.72.
   */
  lemma OpexOfTestLeaves(kw: Kwargs)
    requires && Get(kw, "sales_salaries") == 0.0 && Get(kw, "advertising_marketing") == 23.0
             && Get(kw, "sales_commissions") == 713.0 && Get(kw, "sales_travel") == 8.9
             && Get(kw, "executive_salaries") == 799.0 && Get(kw, "office_rent_utilities") == 0.0
             && Get(kw, "accounting_fees") == 0.0 && Get(kw, "insurance") == 3.0
    requires && Get(kw, "depreciation") == 9.22 && Get(kw, "amortization") == 17900.0
             && Get(kw, "bad_debt") == 2.3 && Get(kw, "consumables") == 0.0
             && Get(kw, "office_supplies") == 0.0 && Get(kw, "professional_fees") == 0.0
             && Get(kw, "permits_licenses_subscriptions") == 0.0
             && Get(kw, "freight_cartage_postage") == 0.0
    requires && Get(kw, "r_and_d_salaries") == 22.0 && Get(kw, "r_and_d_materials") == 32.0
             && Get(kw, "r_and_d_testing") == 223.0
    requires && Get(kw, "maintenance_repairs") == 0.0 && Get(kw, "employee_benefits") == 2.3
             && Get(kw, "training_development") == 34.0 && Get(kw, "travel_meals") == 334.0
             && Get(kw, "impairment_costs") == 323.0 && Get(kw, "donations") == 0.0
    requires && "total_sg_and_a" !in kw && "total_r_and_d" !in kw
             && "total_other_operating" !in kw && "total_operating_expenses" !in kw
    ensures var o := MakeOperatingExpenses(kw);
      && o.depreciation == 9.22 && o.amortization == 17900.0
      && o.totalSgAndA == 19458.42
      && o.totalRAndD == 277.0
      && o.totalOtherOperating == 693.3
      && o.totalOperatingExpenses == 20428.72
  {
  }

  /** The income test's own operating-expense arguments total 20428.72. */
  lemma ExampleOpexTotals()
    ensures var o := MakeOperatingExpenses(ExampleOpexArgs);
      && o.depreciation == 9.22 && o.amortization == 17900.0
      && o.totalOperatingExpenses == 20428.72
  {
    ExampleOpexSellingArgs();
    ExampleOpexAdminArgs();
    ExampleOpexOtherArgs();
    OpexOfTestLeaves(ExampleOpexArgs);
  }

  /**
   * The full chain for the income test's figures: cost of goods sold and
   * operating expenses are built from the test's own keyword arguments, then the
   * statement from its raw fields.
   */
  lemma IncomeChainExample()
    ensures var cogs := MakeCogs(ExampleCogsArgs);
      var opex := MakeOperatingExpenses(ExampleOpexArgs);
      var r := MakeIncomeStatement(map[
      "revenue" := 148300.0, "other_revenue" := 0.0, "interest_expenses" := 2300.0,
      "tax_expenses" := 78000.0, "extraordinary_expenses" := 230.0], cogs, opex);
      && cogs.totalCogs == 46000.0
      && opex.totalOperatingExpenses == 20428.72
      && r.Success?
      && r.value.grossProfit == 102300.0
      && r.value.ebit == 81871.28
      && r.value.ebitda == 99780.5
      && r.value.ebt == 79571.28
      && r.value.netIncome == 1801.28
      && r.value.totalExpenses == 146958.72
      && r.value.operatingMargin * 148300.0 == 81871.28
      && r.value.netMargin * 148300.0 == 1801.28
  {
    ExampleOpexTotals();
    CogsExamples();
    IncomeOfTestTotals(MakeCogs(ExampleCogsArgs), MakeOperatingExpenses(ExampleOpexArgs));
  }

  /** The income test's statement over any sub-statements with the test's totals. */
  lemma IncomeOfTestTotals(cogs: Cogs, opex: OperatingExpenses)
    requires cogs.totalCogs == 46000.0
    requires opex.totalOperatingExpenses == 20428.72
    requires opex.depreciation == 9.22 && opex.amortization == 17900.0
    ensures var r := MakeIncomeStatement(map[
      "revenue" := 148300.0, "other_revenue" := 0.0, "interest_expenses" := 2300.0,
      "tax_expenses" := 78000.0, "extraordinary_expenses" := 230.0], cogs, opex);
      && r.Success?
      && r.value.grossProfit == 102300.0
      && r.value.ebit == 81871.28
      && r.value.ebitda == 99780.5
      && r.value.ebt == 79571.28
      && r.value.netIncome == 1801.28
      && r.value.totalExpenses == 146958.72
      && r.value.operatingMargin * 148300.0 == 81871.28
      && r.value.netMargin * 148300.0 == 1801.28
  {
  }

  /** Without `revenue` and `tax_expenses` there is no statement, and both are reported. */
  lemma IncomeMissingRequired(cogs: Cogs, opex: OperatingExpenses)
    ensures MakeIncomeStatement(map["other_revenue" := 10.0], cogs, opex)
      == Failure(MissingRequiredFields(["revenue", "tax_expenses"]))
  {
    var kw := map["other_revenue" := 10.0];
    assert "revenue" !in kw && "tax_expenses" !in kw;
    assert MissingRequired(kw) == ["revenue", "tax_expenses"];
  }
}

=== FILE: misc.dfy ===
/**
 * The two pure JSON helpers: recursive lower-casing of object keys, and the
 * selection of keys by category from a list of classified items.
 */
module Misc {
  import opened Wrappers
  import opened Dicts

  /** A parsed JSON document; an object is an insertion-ordered list of members. */
  datatype Json =
    | JNull
    | JBool(b: bool)
    | JNumber(n: real)
    | JString(s: string)
    | JArray(items: seq<Json>)
    | JObject(members: seq<(string, Json)>)

  // ---------------------------------------------------------------------------
  // Lower-casing
  // ---------------------------------------------------------------------------

  /** ASCII lower-casing of one character. */
  function LowerChar(c: char): (r: char) {
    if 'A' <= c <= 'Z' then (c as int + 32) as char else c
  }

  /** A string with no upper-case ASCII letter. */
  predicate IsLower(s: string) {
    forall i :: 0 <= i < |s| ==> !('A' <= s[i] <= 'Z')
  }

  /** ASCII lower-casing of a string. */
  function Lower(s: string): (r: string)
    ensures |r| == |s|
    ensures forall i :: 0 <= i < |s| ==>
      && ('A' <= s[i] <= 'Z' ==> r[i] as int == s[i] as int + 32)
      && (!('A' <= s[i] <= 'Z') ==> r[i] == s[i])
    ensures IsLower(r)
    ensures IsLower(s) ==> r == s
  {
    seq(|s|, i requires 0 <= i < |s| => LowerChar(s[i]))
  }

  /** Two characters that are the same letter up to ASCII case, or simply equal. */
  predicate SameIgnoringCase(a: char, b: char) {
    || a == b
    || ('A' <= a <= 'Z' && b as int == a as int + 32)
    || ('A' <= b <= 'Z' && a as int == b as int + 32)
  }

  /** Two strings that agree position by position up to ASCII case. */
  predicate EqualIgnoringCase(s: string, t: string) {
    && |s| == |t|
    && forall i :: 0 <= i < |s| ==> SameIgnoringCase(s[i], t[i])
  }

  /** Two keys lower-case to the same key exactly when they differ only in case. */
  lemma LowerSameIffEqualIgnoringCase(s: string, t: string)
    ensures Lower(s) == Lower(t) <==> EqualIgnoringCase(s, t)
  {
    if EqualIgnoringCase(s, t) {
      assert forall i :: 0 <= i < |s| ==> Lower(s)[i] == Lower(t)[i];
    }
    if Lower(s) == Lower(t) {
      forall i | 0 <= i < |s| ensures SameIgnoringCase(s[i], t[i]) {
        assert Lower(s)[i] == Lower(t)[i];
      }
    }
  }

  /**
   * A document in the form lower-casing produces: every object is a dict whose
   * keys are all lower-case, at every depth.
   */
  predicate Normalized(j: Json)
    decreases j
  {
    match j
    case JArray(items) => forall i :: 0 <= i < |items| ==> Normalized(items[i])
    case JObject(ms) =>
      && DistinctKeys(ms)
      && forall i :: 0 <= i < |ms| ==> IsLower(ms[i].0) && Normalized(ms[i].1)
    case _ => true
  }

  /**
   * Lower-cases every object key at every depth. An object is rebuilt as a dict,
   * so keys that differ only in case collapse into one entry; a list is mapped
   * element by element; any other value is returned as it is.
   */
  function Downcase(j: Json): (r: Json)
    ensures Normalized(r)
    ensures j.JArray? ==>
      && r.JArray?
      && |r.items| == |j.items|
      && forall i :: 0 <= i < |j.items| ==> r.items[i] == Downcase(j.items[i])
    ensures j.JObject? ==> r.JObject?
    ensures !j.JArray? && !j.JObject? ==> r == j
    decreases j
  {
    match j
    case JArray(items) =>
      JArray(seq(|items|, i requires 0 <= i < |items| => Downcase(items[i])))
    case JObject(ms) =>
      var lowered := seq(|ms|, i requires 0 <= i < |ms| => (Lower(ms[i].0), Downcase(ms[i].1)));
      assert forall p :: p in lowered ==> IsLower(p.0) && Normalized(p.1);
      var collected := Collect(lowered);
      CollectIsDict(lowered);
      assert forall i :: 0 <= i < |collected| ==> collected[i] in lowered;
      JObject(collected)
    case _ => j
  }

  /** The members with lower-cased keys and unchanged values. */
  function LowerKeys(ms: seq<(string, Json)>): (r: seq<(string, Json)>)
    ensures |r| == |ms|
    ensures forall i :: 0 <= i < |ms| ==> r[i] == (Lower(ms[i].0), ms[i].1)
  {
    seq(|ms|, i requires 0 <= i < |ms| => (Lower(ms[i].0), ms[i].1))
  }

  /**
   * The entry for key `k` in a lower-cased object comes from the LAST member
   * whose key lower-cases to `k`, with its value lower-cased in turn; the keys
   * appear in the order of their first occurrence.
   */
  lemma DowncaseObject(ms: seq<(string, Json)>, k: string)
    ensures var r := Downcase(JObject(ms)).members;
      && Keys(r) == FirstOccurrences(Keys(LowerKeys(ms)))
      && (Lookup(r, k).Some? <==> Lookup(LowerKeys(ms), k).Some?)
      && (Lookup(r, k).Some? ==> Lookup(r, k).value == Downcase(Lookup(LowerKeys(ms), k).value))
  {
    var lowered := seq(|ms|, i requires 0 <= i < |ms| => (Lower(ms[i].0), Downcase(ms[i].1)));
    CollectIsDict(lowered);
    assert Keys(lowered) == Keys(LowerKeys(ms));
    LookupDowncasedValues(LowerKeys(ms), lowered, k);
  }

  /** Looking up in a list whose values are lower-cased copies of another's. */
  lemma {:induction false} LookupDowncasedValues(
    ms: seq<(string, Json)>, ds: seq<(string, Json)>, k: string)
    requires |ds| == |ms|
    requires forall i :: 0 <= i < |ms| ==> ds[i] == (ms[i].0, Downcase(ms[i].1))
    ensures Lookup(ds, k).Some? <==> Lookup(ms, k).Some?
    ensures Lookup(ds, k).Some? ==> Lookup(ds, k).value == Downcase(Lookup(ms, k).value)
    decreases |ms|
  {
    if |ms| > 0 && ms[|ms| - 1].0 != k {
      LookupDowncasedValues(ms[..|ms| - 1], ds[..|ds| - 1], k);
    }
  }

  /** A document already in normal form is left unchanged. */
  lemma {:induction false} DowncaseNormalized(j: Json)
    requires Normalized(j)
    ensures Downcase(j) == j
    decreases j
  {
    match j
    case JArray(items) =>
      forall i | 0 <= i < |items| ensures Downcase(items[i]) == items[i] {
        DowncaseNormalized(items[i]);
      }
      assert Downcase(j).items == items;
    case JObject(ms) =>
      var lowered := seq(|ms|, i requires 0 <= i < |ms| => (Lower(ms[i].0), Downcase(ms[i].1)));
      forall i | 0 <= i < |ms| ensures lowered[i] == ms[i] {
        DowncaseNormalized(ms[i].1);
      }
      assert lowered == ms;
      CollectOfDict(ms);
    case _ =>
  }

  /** Lower-casing twice is lower-casing once. */
  lemma DowncaseIdempotent(j: Json)
    ensures Downcase(Downcase(j)) == Downcase(j)
  {
    DowncaseNormalized(Downcase(j));
  }

  /** Keys differing only in case collapse: first position, last value. */
  lemma DowncaseCollapseExample()
    ensures Downcase(JObject([("Cash", JNumber(1.0)), ("debt", JNull), ("CASH", JNumber(2.0))]))
      == JObject([("cash", JNumber(2.0)), ("debt", JNull)])
  {
    var ms := [("Cash", JNumber(1.0)), ("debt", JNull), ("CASH", JNumber(2.0))];
    var lowered := [("cash", JNumber(1.0)), ("debt", JNull), ("cash", JNumber(2.0))];
    assert Lower("Cash") == "cash" && Lower("CASH") == "cash" && Lower("debt") == "debt";
    assert seq(|ms|, i requires 0 <= i < |ms| => (Lower(ms[i].0), Downcase(ms[i].1))) == lowered;
    assert "cash" != "debt" by { assert "cash"[0] != "debt"[0]; }
    assert lowered[..2][..1] == lowered[..1] && lowered[..1][..0] == [];
    var one := [("cash", JNumber(1.0))];
    assert Collect(lowered[..1]) == Put([], "cash", JNumber(1.0)) == one;
    var two := one + [("debt", JNull)];
    assert Put(one, "debt", JNull) == [one[0]] + Put([], "debt", JNull) == two;
    assert Collect(lowered[..2]) == two;
    assert Put(two, "cash", JNumber(2.0)) == [("cash", JNumber(2.0))] + two[1..];
  }

  // ---------------------------------------------------------------------------
  // Selecting keys by category
  // ---------------------------------------------------------------------------

  /**
   * Whether a value belongs to the category: equal to the category string, or
   * null when no category is given.
   */
  predicate InCategory(value: Json, category: Option<string>) {
    match category
    case None => value == JNull
    case Some(c) => value == JString(c)
  }

  /** The keys of one item whose value belongs to the category, in order. */
  function ItemKeys(item: seq<(string, Json)>, category: Option<string>): (keys: seq<string>)
    decreases |item|
  {
    if |item| == 0 then []
    else
      var n := |item| - 1;
      ItemKeys(item[..n], category) + (if InCategory(item[n].1, category) then [item[n].0] else [])
  }

  /** The keys of every item whose value belongs to the category, item by item. */
  function KeysInCategory(data: seq<seq<(string, Json)>>, category: Option<string>): (keys: seq<string>)
    decreases |data|
  {
    if |data| == 0 then []
    else KeysInCategory(data[..|data| - 1], category) + ItemKeys(data[|data| - 1], category)
  }

  /** The number of key/value pairs over all items. */
  function PairCount(data: seq<seq<(string, Json)>>): (n: nat)
    decreases |data|
  {
    if |data| == 0 then 0 else PairCount(data[..|data| - 1]) + |data[|data| - 1]|
  }

  /**
   * Collects, item after item and key after key, the keys whose value equals
   * `category`, or whose value is null when no category is given.
   */
  method FilterKeysByCategory(data: seq<seq<(string, Json)>>, category: Option<string>)
    returns (keys: seq<string>)
    requires forall i :: 0 <= i < |data| ==> DistinctKeys(data[i])
    ensures keys == KeysInCategory(data, category)
    ensures |keys| <= PairCount(data)
    ensures forall k :: k in keys <==>
      exists i, j :: 0 <= i < |data| && 0 <= j < |data[i]|
                     && data[i][j].0 == k && InCategory(data[i][j].1, category)
  {
    keys := [];
    var i := 0;
    while i < |data|
      invariant 0 <= i <= |data|
      invariant keys == KeysInCategory(data[..i], category)
    {
      var item := data[i];
      var j := 0;
      while j < |item|
        invariant 0 <= j <= |item|
        invariant keys == KeysInCategory(data[..i], category) + ItemKeys(item[..j], category)
      {
        if InCategory(item[j].1, category) {
          keys := keys + [item[j].0];
        }
        assert item[..j + 1][..j] == item[..j];
        j := j + 1;
      }
      assert item[..j] == item;
      assert data[..i + 1][..i] == data[..i];
      i := i + 1;
    }
    assert data[..i] == data;
    KeysInCategoryCount(data, category);
    forall k {
      KeysInCategoryMembers(data, category, k);
    }
  }

  /** Never more keys are selected than there are pairs. */
  lemma {:induction false} KeysInCategoryCount(data: seq<seq<(string, Json)>>, category: Option<string>)
    ensures |KeysInCategory(data, category)| <= PairCount(data)
    decreases |data|
  {
    if |data| > 0 {
      KeysInCategoryCount(data[..|data| - 1], category);
      ItemKeysCount(data[|data| - 1], category);
    }
  }

  /** Never more keys are selected from an item than it has pairs. */
  lemma {:induction false} ItemKeysCount(item: seq<(string, Json)>, category: Option<string>)
    ensures |ItemKeys(item, category)| <= |item|
    decreases |item|
  {
    if |item| > 0 {
      ItemKeysCount(item[..|item| - 1], category);
    }
  }

  /** A key is selected from an item exactly when one of its pairs has that key and a value in the category. */
  lemma {:induction false} ItemKeysMembers(item: seq<(string, Json)>, category: Option<string>, k: string)
    ensures k in ItemKeys(item, category) <==>
      exists j :: 0 <= j < |item| && item[j].0 == k && InCategory(item[j].1, category)
    decreases |item|
  {
    if |item| > 0 {
      var n := |item| - 1;
      ItemKeysMembers(item[..n], category, k);
      if k in ItemKeys(item[..n], category) {
        var j :| 0 <= j < n && item[..n][j].0 == k && InCategory(item[..n][j].1, category);
        assert item[j] == item[..n][j];
      }
      if exists j :: 0 <= j < |item| && item[j].0 == k && InCategory(item[j].1, category) {
        var j :| 0 <= j < |item| && item[j].0 == k && InCategory(item[j].1, category);
        if j < n {
          assert item[..n][j] == item[j];
        }
      }
    }
  }

  /** The selected keys are exactly the keys, over all items, whose value is in the category. */
  lemma {:induction false} KeysInCategoryMembers(
    data: seq<seq<(string, Json)>>, category: Option<string>, k: string)
    ensures k in KeysInCategory(data, category) <==>
      exists i, j :: 0 <= i < |data| && 0 <= j < |data[i]|
                     && data[i][j].0 == k && InCategory(data[i][j].1, category)
    decreases |data|
  {
    if |data| > 0 {
      var n := |data| - 1;
      KeysInCategoryMembers(data[..n], category, k);
      ItemKeysMembers(data[n], category, k);
      if k in KeysInCategory(data[..n], category) {
        var i, j :| 0 <= i < n && 0 <= j < |data[..n][i]|
                    && data[..n][i][j].0 == k && InCategory(data[..n][i][j].1, category);
        assert data[i] == data[..n][i];
      }
      if exists i, j :: 0 <= i < |data| && 0 <= j < |data[i]|
                        && data[i][j].0 == k && InCategory(data[i][j].1, category) {
        var i, j :| 0 <= i < |data| && 0 <= j < |data[i]|
                    && data[i][j].0 == k && InCategory(data[i][j].1, category);
        if i < n {
          assert data[..n][i] == data[i];
        }
      }
    }
  }

  /** Selecting by a category and selecting the unclassified (null) keys. */
  lemma FilterExample()
    ensures var data := [[("rent", JString("expense")), ("sales", JString("earning"))],
                         [("misc", JNull), ("wages", JString("expense"))]];
      && KeysInCategory(data, Some("expense")) == ["rent", "wages"]
      && KeysInCategory(data, None) == ["misc"]
  {
    var data := [[("rent", JString("expense")), ("sales", JString("earning"))],
                 [("misc", JNull), ("wages", JString("expense"))]];
    assert JString("expense") != JString("earning") by { assert "expense"[1] != "earning"[1]; }
    assert data[..2][..1] == data[..1] && data[..1][..0] == [];
    forall item | item in data ensures item[..2][..1] == item[..1] && item[..1][..0] == [] {}
    assert ItemKeys(data[0], Some("expense")) == ["rent"];
    assert ItemKeys(data[1], Some("expense")) == ["wages"];
    assert ItemKeys(data[0], None) == [];
    assert ItemKeys(data[1], None) == ["misc"];
  }
}

=== FILE: wrappers.dfy ===
/** Option and Result, the wrappers used throughout the model. */
module Wrappers {

  /** A value that may be absent. */
  datatype Option<+T> = None | Some(value: T)

  /** The outcome of a constructor: a fully resolved value or an error, never a partial value. */
  datatype Result<+R, +E> = Success(value: R) | Failure(error: E)
}
